=== FILE: README.md ===
# NewsNinja core, modelled in Dafny

NewsNinja turns a handful of topics into a spoken news bulletin. For each
topic it collects material from up to three sources:

- Google News search pages, which are fetched, reduced to headlines and
  summarised by Gemini;
- Reddit discussions, analysed by a Gemini agent over an MCP session;
- Twitter discussions, analysed the same way.

It composes one English broadcast script from everything it gathered and
translates the script when another language is asked for. Murf then turns it
into audio. This project models the deterministic core of that pipeline:

- **Text, URLs, retries, dicts.** Python's `str.strip`, `split` and `join`
  (`Text`). The search URL with its `quote_plus` query and a decoder
  partner (`UrlCodec`). tenacity's stop/wait/retry decorators (`Retry`).
  Dicts filled by a loop, where the last assignment wins (`Dicts`).
- **Headlines.** `extract_headlines` (`Headlines`), with a second, reference
  definition ("the first line of every non-empty block between `More`
  lines") proved equal to the loop.
- **Composer.** The topic-block assembly of `generate_broadcast_news`
  (`Composer`).
- **Language.** The voice table and its lookup, and `translate_for_language`
  (`Language`).
- **News collector.** `NewsScraper.scrape_news` (`NewsScraper`). This covers
  the primary and fallback fetches, the stand-in headline, the per-topic
  placeholder and the retry decorator.
- **Reddit and Twitter collectors** (`Agents`). This covers each agent's
  `ainvoke`, `process_topic` with its "Overloaded" retry, and the batch loop
  with its whole-batch fallback.
- **Request handler.** The `/generate-news-audio` handler (`Backend`). This
  covers source selection, placeholder maps, the translation skip, the voice,
  the Murf call and the conversion of every exception to HTTP 500.

Everything that talks to the outside world is a parameter. Each BrightData
or direct fetch, Gemini call, MCP session and Murf call enters as an
`Outcome` (`Ok(value)` or `Err(message)`), either fixed in advance per topic
and attempt or given as a function of the prompt sent. `str(e)` of an
exception is its `Err` message. The HTML-to-text step is a function
parameter, and so is the check that the audio file exists.

Facts the proofs bring out about the code as written:

- The agents' `ainvoke` catches every model error. So with the repository's
  agents, `process_topic`'s "Overloaded" retry never fires
  (`Agents.GeminiNeverRetries`).
- `scrape_news` catches every per-topic error. So its own retry decorator
  never makes a second attempt (`NewsScraper.NewsNeverRetries`).
- The Reddit and Twitter collectors never raise. So the handler's "Reddit
  unavailable" and "Twitter unavailable" maps are never used with them
  (`Backend.RepoCollectorsReachComposer`).

Two details of the code that the model follows exactly:

- tenacity's exponential wait is `max(min, min(multiplier * 2^(attempt-1), max))`
  (`Retry.Backoff`). With the agents' policy (multiplier 1, min 15, max 60),
  both waits are 15 seconds.
- The handler calls the news collector without a local `try`, so a news
  collector that raised would become an HTTP 500 with the error's text as the
  detail (`Backend.Gather`). The repository's news collector never raises
  (`NewsScraper.ScrapeNews`).

## Model

| member | source | states |
|---|---|---|
| Text.Strip | utils.py:79 | `str.strip()`: the result is the input with the longest white-space prefix and suffix removed. White space is exactly the characters `str.isspace` accepts. The result neither starts nor ends with white space. |
| Text.StripIdempotent | utils.py:79 | Stripping twice gives what stripping once gives. |
| Text.StripEmptyIff | news_scraper.py:114 | `s.strip() == ""` holds exactly when every character of `s` is white space. |
| Text.SplitCount | reddit_scraper.py:66 | `s.split(c)` has one more part than `s` has occurrences of `c`. So `[1]` exists whenever `c in s`, and topic extraction cannot fail. |
| Text.JoinSplit | utils.py:95 | Joining the parts of a split with the separator rebuilds the text. |
| Text.SplitJoin | utils.py:95 | Splitting a join of separator-free parts gives back the parts. This is the partner of `"\n".join`. |
| UrlCodec.DecodeEncodeUtf8 | utils.py:29 | Decoding the UTF-8 encoding of any string gives back the string. |
| UrlCodec.UnquoteQuotePlus | utils.py:29 | A strict percent/plus decoder recovers every keyword from `quote_plus(keyword)`. |
| UrlCodec.QuotePlusAlphabet | utils.py:29 | `quote_plus` output holds only unreserved characters, `+`, `%` and upper-case hex digits. It never holds `&`, `=`, `#`, a space or `/`. |
| UrlCodec.QuotePlusUnreserved | utils.py:29 | A keyword made of unreserved characters only is passed through unchanged. |
| UrlCodec.NewsUrl | utils.py:21-30 | The URL starts with `https://news.google.com/search?q=` and ends with `&tbs=sbd:1`. |
| UrlCodec.NewsUrlRoundTrip | utils.py:29-30 | The `q` value of the URL, up to the first `&`, is exactly `quote_plus(keyword)`. Decoding it gives back the keyword. |
| UrlCodec.NewsUrlInjective | utils.py:29-30 | Different keywords give different URLs. |
| UrlCodec.NewsUrls | utils.py:32-36 | The dict has exactly the input keywords as keys. Each maps to its own search URL. |
| Dicts.Assign | reddit_scraper.py:126-130 | A dict filled by a loop over the keys has exactly those keys. A repeated key keeps the value of its last occurrence. |
| Headlines.Lines | utils.py:79 | The lines walked over are non-empty and stripped, with no newline inside. Which input lines they are, and their order, is stated by `Headlines.LinesPositions`. |
| Headlines.StrippedIsFilterMap | utils.py:79 | The comprehension keeps `line.strip()` for exactly the lines whose stripped text is not empty, in order: it is the filter-map of `NonBlank`. |
| Headlines.LinesPositions | utils.py:79 | Every line is the stripped text of a piece of `text.split('\n')`, taken at increasing positions. A piece gives a line exactly when its stripped text is not empty, so no input line is lost, added or reordered. |
| Headlines.BlockHeads | utils.py:82-93 | The loop with its final flush yields the first line of every non-empty group of lines between `"More"` lines, in order. This is a reference definition independent of the loop. |
| Headlines.HeadlinesAreBlockHeads | utils.py:79-93 | The same statement for the lines of a text. |
| Headlines.ScanPositions | utils.py:82-93 | The loop keeps exactly the lines that open a run of non-`"More"` lines, in order, and never `"More"` itself. |
| Headlines.HeadlinePositions | utils.py:79-95 | Every headline is a stripped, non-empty line that is not `"More"`, and the headlines keep line order. A line is a headline exactly when it opens a run of non-`"More"` lines. So there are as many headlines as runs, and neither leading nor repeated `"More"` lines produce an empty headline. |
| Headlines.NoHeadlinesIff | utils.py:82-93 | No headline is found exactly when every line is `"More"`. |
| Headlines.BlankText | utils.py:79 | Text that is empty or white space only gives `""`. |
| Headlines.NoMoreMarker | utils.py:91-95 | Without a `"More"` line the result is the first stripped, non-empty line. |
| Headlines.TrailingBlock | utils.py:91-93 | A block after the last `"More"` still contributes its first line, as the last headline. |
| Headlines.BlankResultIff | utils.py:95 | The result is empty or blank exactly when no headline was found. |
| Headlines.SplitHeadlines | utils.py:95 | Splitting the result on newlines gives back the headline list. |
| Retry.Backoff | reddit_scraper.py:76 | The wait after a failed attempt is at least the policy's minimum and, when min ≤ max, at most its maximum. |
| Retry.BackoffMonotone | reddit_scraper.py:76 | Later attempts never wait less than earlier ones. |
| Retry.Run | reddit_scraper.py:74-79 | At most `stop_after_attempt` attempts are made. The result is the last attempt's. Every earlier attempt raised a retryable error. A run that stops early ended on a result or a non-retryable error. There is one wait between consecutive attempts, each within the bounds. |
| Retry.RunStopsAtFirstFinal | reddit_scraper.py:74-79 | The attempt count is determined: the run ends at the first attempt that returns or raises a non-retryable error. |
| Composer.Context | utils.py:164-170 | A source gets a section exactly when its content for the topic is non-empty. Sections come in the order news, Reddit, Twitter. There is a section exactly when the topic has material. |
| Composer.Sections | utils.py:165-170 | Each section is its source's heading followed by its content. |
| Composer.TopicBlock | utils.py:172-176 | A topic gets a block exactly when some source has material for it. The block starts with `TOPIC: <topic>` and a blank line. |
| Composer.UserPrompt | utils.py:178-181 | The prompt starts with the fixed header. |
| Composer.BlockPositions | utils.py:158-176 | The blocks are exactly those of the topics with material, in topic order. |
| Composer.SameContentSameBlocks | utils.py:160-162 | Only the content each source holds for each topic matters. |
| Composer.NoneActsAsEmpty | utils.py:160-162 | A source passed as `None` contributes what an empty analysis would: nothing. |
| Composer.NoMaterialBareHeader | utils.py:178-181 | Without material for any topic the prompt is the bare header. |
| Composer.SingleSourceBlock | utils.py:164-176 | A topic with one source of material gets a block holding just that section. |
| Composer.TwoBlocks | utils.py:178-181 | Two blocks are joined by `--- NEW TOPIC ---` between blank lines, after the header. |
| Composer.TwoTopicsOneSourceEach | utils.py:158-181 | The prompt for a news-only topic followed by a Reddit-only topic, written out in full. |
| Language.VoiceForLanguage | utils.py:331-333 | `get_voice_for_language` as written: a table key gives its voice, anything else gives `en-US-natalie`. |
| Language.KeysHaveNoHyphen | utils.py:317-329 | Every table key is two characters without a hyphen. |
| Language.LocaleGetsDefault | utils.py:331-333 | Any code containing a hyphen gets the default voice from the lookup as written. |
| Language.FrontendLocalesGetDefault | frontend.py:10-19 | So does every locale the front end sends, Hindi and Japanese included. |
| Language.VoiceForLocale | backend.py:101 | The corrected lookup always gives the default voice or a voice of the table. |
| Language.LocaleUsesLanguage | utils.py:331-333 | With the corrected lookup, `lang-REGION` gets the voice of `lang`. |
| Language.BareCodeUnchanged | utils.py:331-333 | With the corrected lookup, a bare language code is looked up as before. |
| Language.FrontendLocaleVoices | frontend.py:10-19 | With the corrected lookup, each front-end locale gets the voice of its two-letter language. |
| Language.HindiLocaleVoice | backend.py:101 | For `hi-IN` the lookup as written gives `en-US-natalie`, and the corrected one gives `shweta`. |
| Language.TranslatePrompt | utils.py:344-348 | The prompt ends with the whole script. |
| Language.TranslateForLanguage | utils.py:335-349 | A target starting with `en` returns the text untouched. Any other target succeeds exactly when the model does. Its result is stripped, and a model error propagates. |
| Language.EnglishIgnoresModel | utils.py:337-338 | For an `en` target the model is never consulted. |
| Language.TranslationIsModelAnswer | utils.py:349 | Otherwise the translation is the model's answer stripped of surrounding white space. |
| NewsScraper.TopicUrl | news_scraper.py:67-78 | The URL fetched for a topic is `generate_valid_news_url(topic)`. |
| NewsScraper.SummaryInput | news_scraper.py:114-117 | The summarizer never gets blank input. Non-blank headlines are passed as they are, and blank ones are replaced by exactly `Latest news about <topic>`. |
| NewsScraper.TopicCalls | news_scraper.py:63-117 | Fetching always starts with BrightData on the topic URL. The direct request is made, on the same URL, exactly when BrightData fails, and BrightData is never called again. The summarizer is called exactly when a page was fetched, and last. |
| NewsScraper.ProcessPage | news_scraper.py:63-140 | The calls for a topic go to its search URL, and the summarizer, when called, gets non-blank input; non-blank headlines are passed as they are, and after a fetch with blank headlines the summarizer's input is exactly `Latest news about <topic>`. The value is the summary, or the placeholder when the fetches or the summarizer failed. |
| NewsScraper.EmptyPageUsesStandIn | news_scraper.py:97-117 | A page with no text makes the summarizer work from `Latest news about <topic>`. |
| NewsScraper.ScrapeNews | news_scraper.py:52-152 | Every topic is a key of `news_analysis`. A repeated topic keeps its last result. No failure escapes. |
| NewsScraper.FailureStaysWithTopic | news_scraper.py:136-140 | A topic whose fetches fail gets the placeholder. Every other topic keeps the result it would have had. |
| NewsScraper.TopicPrimaryUrl | news_scraper.py:73-78 | Each topic makes exactly one BrightData request, for its own URL. |
| NewsScraper.PrimaryRequestsInOrder | news_scraper.py:55-78 | Over the whole run, the BrightData requests go out for the topics' URLs one each, in list order: they are the topics mapped to their search URLs. |
| NewsScraper.NewsNeverRetries | news_scraper.py:35-39 | The retry decorator around `scrape_news` makes one attempt, with no wait, and returns its result. |
| Agents.UserLead | reddit_scraper.py:96 | The user message has no quote before the topic's opening quote. |
| Agents.LastContent | reddit_scraper.py:49-53 | The content of the last message with a role, or `""` when there is none. |
| Agents.ScanRolesIsLast | reddit_scraper.py:49-53 | The loop keeps, for each role, the content of its last message. Later messages overwrite earlier ones. |
| Agents.PromptOfPair | reddit_scraper.py:55 | For a system then a user message, the prompt is the system text, a blank line, then the user text. |
| Agents.PromptOfMessages | reddit_scraper.py:86-104 | The prompt the agent sends to Gemini for a topic is the system message, a blank line, then the user message. The same holds at twitter_scraper.py:83-104. |
| Agents.QuotedTopic | reddit_scraper.py:66 | The text between the first two quotes is read back when nothing before it has a quote. |
| Agents.ExtractTopicRoundTrip | reddit_scraper.py:96 | A topic without a quote is recovered exactly from its user message, for both agents. |
| Agents.ExtractTopicTruncates | reddit_scraper.py:71 | A topic with a quote is cut at its first quote. |
| Agents.QuotedPrefix | reddit_scraper.py:71 | A quoted text is read back up to its first inner quote. |
| Agents.Invoke | reddit_scraper.py:43-72 | `ainvoke` never raises. Gemini is sent the prompt built from the messages. The answer is Gemini's text for that prompt, or, when Gemini raises on it, `<Source> discussions about <topic> are currently unavailable.` with the topic read from the last user message. The same holds at twitter_scraper.py:42-71. |
| Agents.AnswerOfPair | reddit_scraper.py:55-68 | For a system then a user message, the answer is Gemini's text for the system text, a blank line and the user text. |
| Agents.AnswerForTopic | reddit_scraper.py:55-68 | For a topic's own messages, the answer is Gemini's text for that topic's prompt. |
| Agents.FailureOfPair | reddit_scraper.py:69-72 | When Gemini raises on the pair's prompt, the answer names the topic extracted from the user message. |
| Agents.FailureNamesTopic | reddit_scraper.py:69-72 | When Gemini raises on a topic's prompt, a topic without a quote is named exactly. |
| Agents.Classify | reddit_scraper.py:109-113 | An error is turned into the retryable kind exactly when its text contains `Overloaded`. Any other error keeps its text. |
| Agents.ProcessTopic | reddit_scraper.py:74-113 | `process_topic` makes 1 to 3 attempts. Only `Overloaded` errors are retried. The result is the last attempt's answer or its classified error. An `Overloaded` result means all 3 attempts were used. Waits are 15 to 60 seconds. |
| Agents.FirstAttemptFinal | reddit_scraper.py:106-113 | An answer or a non-`Overloaded` error on the first attempt ends the call there. |
| Agents.OverloadedThrice | reddit_scraper.py:74-79 | Three `Overloaded` errors use all attempts, wait 15 s twice, and re-raise `Service overloaded`. |
| Agents.OverloadedThenAnswer | reddit_scraper.py:74-79 | Two `Overloaded` errors, then an answer: the answer is returned after two 15 s waits. |
| Agents.RunTopics | reddit_scraper.py:127-132 | The topic loop succeeds exactly when every topic does. Its summaries are the topics' results, in order. |
| Agents.Fallback | reddit_scraper.py:137-142 | The fallback maps every topic to its unavailable sentence. |
| Agents.ScrapeTopics | reddit_scraper.py:115-142 | Every topic is a key. Either every topic has its summary, or, when the session or any topic raised, every topic has the unavailable sentence and completed results are discarded. The same holds at twitter_scraper.py:115-142. |
| Agents.AnswersNeverRetry | reddit_scraper.py:106-108 | An agent that never raises is asked once per topic. |
| Agents.GeminiNeverRetries | reddit_scraper.py:69-79 | With the Gemini agent, the `Overloaded` retry never fires: one attempt, no wait. |
| Agents.AnswersCollected | reddit_scraper.py:126-135 | With agents that never raise and a session that raises nothing while opening, loading its tools or closing, each topic gets its first answer. |
| Agents.GeminiAnswersCollected | reddit_scraper.py:124-135 | With the Gemini agent, each topic gets the agent's answer to its own messages. |
| Agents.ScrapeWithGemini | reddit_scraper.py:118-135 | As wired in the repository: every topic is a key. When the session raises nothing while opening, loading its tools or closing, each topic gets its agent's answer to its own messages: Gemini's text, or, when Gemini fails on it, the unavailable sentence naming the topic read back from its user message. That is the topic itself when it has no apostrophe (`Agents.FailureNamesTopic`), and the part before its first apostrophe otherwise (`Agents.ExtractTopicTruncates`). Other topics are unaffected. |
| Agents.SessionFailureFallback | reddit_scraper.py:137-142 | A session that raises, whether on opening or on closing after the last topic, gives the whole-batch fallback, whatever the topics would have given. |
| Agents.GeminiCollectorSessionFailure | reddit_scraper.py:118-142 | The same for the repository's wiring. |
| Backend.Select | backend.py:38-61 | Reddit and Twitter together always come with news. News without Reddit is selected only by `news`, and Twitter without news only by `twitter`. |
| Backend.SelectionTable | backend.py:38-61 | `news`, `reddit`, `twitter`, `both` and `all` select {news}, {reddit}, {twitter}, {news, reddit} and all three. Any other string selects nothing. |
| Backend.Uniform | backend.py:56-58 | The placeholder map sends every request topic, and only those, to one text. |
| Backend.Gather | backend.py:37-71 | The request fails, with the news error, exactly when news is selected and its collector raised. Otherwise each selected source hands over its map, and unselected sources are `None`. A selected Reddit or Twitter collector that raised is replaced by `Reddit unavailable` or `Twitter unavailable` for every topic. |
| Backend.UnselectedAddsNothing | backend.py:76-82 | An unselected source adds nothing to the composer's prompt. |
| Backend.TextToAudio | utils.py:241-289 | Synthesis succeeds exactly when the API key is set, Murf returns an audio URL and the download succeeds. The path is then `audio/tts_<stamp>.mp3`, never empty. A missing key and a missing URL give their own errors. |
| Backend.FinalText | backend.py:88-96 | For every language starting with `en` the spoken text is the English summary. Otherwise it is the translation. |
| Backend.Handle | backend.py:26-138 | The handler, for a given voice lookup. Every failure is HTTP 500. A success carries the translated summary, the audio file written with the looked-up voice (which exists on disk), and the request's topics, source type and language. Each error has its own detail: the news collector's error, the composer's, the translator's, Murf's, and `Audio generation failed` when the file is missing. When every step succeeds and the file exists, the response is exactly that success. |
| Backend.GenerateNewsAudio | backend.py:101 | The handler as written looks the voice up with `get_voice_for_language(req.language)`: a successful request is spoken with that voice. |
| Backend.LocaleRequestsSpeakDefault | backend.py:101 | So a request with a locale code such as `hi-IN` or `en-US` is spoken with the default voice `en-US-natalie`. |
| Backend.GenerateNewsAudioByLocale | backend.py:101 | The corrected handler speaks with the voice of the locale's language. |
| Backend.HindiRequestVoices | backend.py:101 | For `hi-IN`, a successful request as written is spoken with `en-US-natalie`, and with the corrected handler with `shweta`. |
| Backend.EnglishSpeaksSummary | backend.py:88-96 | For `en-*` languages the handler as written answers with the composer's English output. |
| Backend.MissingFileFails | backend.py:112-113 | Once everything else succeeded, the handler as written fails with `Audio generation failed` exactly when the file is not on disk. |
| Backend.RepoCollectorsReachComposer | backend.py:48-71 | With collectors that do not raise, as the repository's do, each selected source hands its collector's map to the composer. The placeholder maps are never used. |
| Backend.RepoAnalyses | backend.py:42-65 | The repository's three collectors, with the news collector reading headlines by `extract_headlines`, return without raising maps keyed by exactly the request topics. |

## Left out

- HTTP and network calls are outcome parameters. This covers BrightData, the direct `requests.get`, Gemini, MCP `stdio_client`/`ClientSession`/`load_mcp_tools` and the Murf API and download. The MCP session is one outcome for its whole life: opening it, loading its tools, and leaving the two `async with` blocks after the `return` (reddit_scraper.py:119-135, twitter_scraper.py:119-135). An error raised on closing is caught like any other (line 137), so the summaries already computed are replaced by the fallback; the model does not separate the point at which the session failed.
- `clean_html_to_text` is a function parameter. BeautifulSoup's HTML parsing is library code outside this model.
- The wording of the LLM prompts is not modelled:
  - the composer's system prompt (the composer's model receives the user prompt, and the fixed system text is folded into that parameter);
  - the summarizer's system prompt;
  - the Ollama and gTTS helpers, which the handler does not call.
- `AsyncLimiter` rate limits and `asyncio.sleep` pauses are not modelled. Their numbers are recorded as `Agents.PacingOf`, and NewsScraper's is 5 per second with a 1-second pause.
- The Reddit cutoff date comes from the clock, so it is the `cutoff` parameter.
- Durations, logging and `processing_time` are clock-dependent or logging only. The audio's base64 encoding in the response is also left out. The response names the audio file instead.
- Backend.Handle: the response metadata leaves out `processing_time`, and the audio is given by its file path rather than base64 content.
- Backend.TextToAudio: Murf's generation options and the exact HTTP status handling of the download are outcome parameters. Only the request's text and voice are distinguished.
- Agents.ProcessTopic: `response["messages"][-1]["content"]` is taken as the agent's answer. An agent whose response lacks that shape is modelled as raising.
- frontend.py is the Streamlit UI. Its limit of three topics is enforced only in the UI, so the model accepts any number of topics.
- test_murf.py is a manual script against the live API.
- A Python `str` may hold lone surrogates, on which `quote_plus` raises. Dafny strings hold Unicode scalar values only.

## Findings

| source | as written | input that shows it | evidently intended | confidence | as-written member | corrected member |
|---|---|---|---|---|---|---|
| backend.py:101 | The handler passes the request's locale code to `get_voice_for_language`, whose table has two-letter keys only (utils.py:317-333). | `language = "hi-IN"` selects `en-US-natalie` instead of the Hindi voice `shweta`, and every front-end locale falls back to the default. | Look up the language part of the locale, before the first hyphen. | medium; not executed. The lookup's docstring speaks of a locale code, so some locale handling was meant. The corrected lookup gives `en-US` the table's English voice `wayne`, not `en-US-natalie`, so the exact intended voice per locale is a guess. The only other voice id the repository sends to Murf is the locale-prefixed `en-US-natalie` (test_murf.py:48), while the table's ids are bare (`shweta`, `wayne`), so Murf may reject the corrected lookup's voices too. | Language.VoiceForLanguage (shown by Language.LocaleGetsDefault, Language.FrontendLocalesGetDefault, Language.HindiLocaleVoice, Backend.LocaleRequestsSpeakDefault); used by Backend.GenerateNewsAudio | Language.VoiceForLocale (proved by Language.LocaleUsesLanguage, Language.FrontendLocaleVoices, Language.HindiLocaleVoice); used by Backend.GenerateNewsAudioByLocale |

=== FILE: agents.dfy ===
/** The Reddit and Twitter collectors (reddit_scraper.py, twitter_scraper.py),
    which share one shape and differ in texts and pacing:

    - the agent's `ainvoke` joins the last system and last user message into
      one prompt, asks Gemini, and on any failure answers with an
      "unavailable" sentence naming the topic it reads back from the user
      message;
    - `process_topic` / `process_twitter_topic` turn an error mentioning
      "Overloaded" into a retryable one (at most 3 attempts, 15 to 60 seconds
      apart, the last error re-raised) and re-raise any other error at once;
    - `scrape_reddit_topics` / `scrape_twitter_topics` run the topics in
      order inside one MCP session, and replace the whole result by
      "unavailable" sentences when the session or any topic raises.

    The MCP session, the Gemini model and the cutoff date are parameters:
    whether the session as a whole (opening it, loading its tools and closing
    it after the last topic) raises, what each attempt for each topic returns
    or raises, and the date text. */
module Agents {
  import opened Wrappers
  import opened Text
  import Dicts
  import Retry

  datatype Variant = Reddit | Twitter

  /** A chat message: `{"role": …, "content": …}`. */
  datatype Message = Message(role: string, content: string)

  /** Rate limit (calls per period) and pause after each topic, in seconds
      (reddit_scraper.py:23, 132; twitter_scraper.py:21, 132). */
  datatype Pacing = Pacing(calls: nat, periodSeconds: nat, pauseSeconds: nat)

  function PacingOf(v: Variant): Pacing {
    match v
    case Reddit => Pacing(1, 15, 5)
    case Twitter => Pacing(2, 15, 3)
  }

  function Name(v: Variant): string {
    match v
    case Reddit => "Reddit"
    case Twitter => "Twitter"
  }

  /** The answer standing in for a topic the agent could not analyse. */
  function Unavailable(v: Variant, topic: string): string {
    Name(v) + " discussions about " + topic + " are currently unavailable."
  }

  /** A line break followed by the 16 spaces of the source's indentation,
      which the triple-quoted messages keep. */
  const Indent: string := "\n                "

  function SystemText(v: Variant, cutoff: string): string {
    match v
    case Reddit =>
      "You are a Reddit analysis expert. Use available tools to:"
      + Indent + "1. Find top 2 posts about the given topic BUT only after " + cutoff + ", NOTHING before this date strictly!"
      + Indent + "2. Analyze their content and sentiment"
      + Indent + "3. Create a summary of discussions and overall sentiment"
    case Twitter =>
      "You are a Twitter analysis expert. Use available tools to:"
      + Indent + "1. Find trending tweets about the given topic from the last 24-48 hours"
      + Indent + "2. Analyze tweet content, engagement metrics, and sentiment"
      + Indent + "3. Identify key influencers and viral discussions"
      + Indent + "4. Create a summary of Twitter conversations and overall sentiment"
  }

  /** The user message up to the opening quote of the topic, without that quote. */
  function UserLead(v: Variant): (lead: string)
    ensures '\'' !in lead
  {
    match v
    case Reddit => "Analyze Reddit posts about "
    case Twitter => "Analyze Twitter/X posts about "
  }

  /** The user message after the closing quote of the topic. */
  function UserTail(v: Variant): string {
    match v
    case Reddit =>
      ". " + Indent + "Provide a comprehensive summary including:"
      + Indent + "- Main discussion points"
      + Indent + "- Key opinions expressed"
      + Indent + "- Any notable trends or patterns"
      + Indent + "- Summarize the overall narrative, discussion points and also quote interesting comments without mentioning names"
      + Indent + "- Overall sentiment (positive/neutral/negative)"
    case Twitter =>
      ". " + Indent + "Provide a comprehensive summary including:"
      + Indent + "- Top trending tweets and their key messages"
      + Indent + "- Engagement levels (likes, retweets, replies)"
      + Indent + "- Sentiment analysis (positive/negative/neutral)"
      + Indent + "- Key influencers and their perspectives"
      + Indent + "- Notable hashtags and trends"
      + Indent + "- Quote interesting tweets without mentioning usernames"
      + Indent + "- Overall Twitter narrative and discussion points"
  }

  /** The user message: the topic between single quotes. */
  function UserText(v: Variant, topic: string): string {
    UserLead(v) + "'" + topic + "'" + UserTail(v)
  }

  /** The two messages `process_topic` sends for a topic. */
  function Messages(v: Variant, topic: string, cutoff: string): seq<Message> {
    [Message("system", SystemText(v, cutoff)), Message("user", UserText(v, topic))]
  }

  // ---------------------------------------------------------------------------
  // ainvoke

  /** The content of the last message with `role`, or "" when there is none. */
  function LastContent(ms: seq<Message>, role: string): (content: string)
    ensures (forall i :: 0 <= i < |ms| ==> ms[i].role != role) ==> content == ""
    ensures forall i :: 0 <= i < |ms| && ms[i].role == role && (forall j :: i < j < |ms| ==> ms[j].role != role)
              ==> content == ms[i].content
    decreases |ms|
  {
    if ms == [] then ""
    else
      var init := ms[..|ms| - 1];
      assert forall i :: 0 <= i < |init| ==> init[i] == ms[i];
      if ms[|ms| - 1].role == role then ms[|ms| - 1].content
      else LastContent(init, role)
  }

  /** The loop at lines 49-53: one pass keeping the latest system and user
      contents, starting from empty strings. */
  function ScanRoles(ms: seq<Message>, system: string, user: string): (r: (string, string))
    decreases |ms|
  {
    if ms == [] then (system, user)
    else if ms[0].role == "system" then ScanRoles(ms[1..], ms[0].content, user)
    else if ms[0].role == "user" then ScanRoles(ms[1..], system, ms[0].content)
    else ScanRoles(ms[1..], system, user)
  }

  lemma {:induction false} ScanRolesFrom(ms: seq<Message>, system: string, user: string)
    ensures var r := ScanRoles(ms, system, user);
      && r.0 == (if exists i :: 0 <= i < |ms| && ms[i].role == "system" then LastContent(ms, "system") else system)
      && r.1 == (if exists i :: 0 <= i < |ms| && ms[i].role == "user" then LastContent(ms, "user") else user)
    decreases |ms|
  {
    if ms != [] {
      var rest := ms[1..];
      var system' := if ms[0].role == "system" then ms[0].content else system;
      var user' := if ms[0].role == "user" then ms[0].content else user;
      assert ScanRoles(ms, system, user) == ScanRoles(rest, system', user');
      ScanRolesFrom(rest, system', user');
      assert ms == [ms[0]] + rest;
      LastContentStep(ms[0], rest, "system", system);
      LastContentStep(ms[0], rest, "user", user);
    }
  }

  /** One step of the scan for one role: the value it carries on is the
      last content with that role so far, or the initial value. */
  lemma LastContentStep(m: Message, rest: seq<Message>, role: string, init: string)
    ensures var carried := if m.role == role then m.content else init;
      (if exists i :: 0 <= i < |rest| && rest[i].role == role then LastContent(rest, role) else carried)
      == (if exists i :: 0 <= i < |[m] + rest| && ([m] + rest)[i].role == role then LastContent([m] + rest, role) else init)
  {
    var ms := [m] + rest;
    LastContentCons(m, rest, role);
    assert ms[0] == m;
    assert forall i :: 0 <= i < |rest| ==> rest[i] == ms[i + 1];
    if exists i :: 0 <= i < |rest| && rest[i].role == role {
      var i :| 0 <= i < |rest| && rest[i].role == role;
      assert ms[i + 1].role == role;
    }
  }

  lemma LastContentCons(m: Message, rest: seq<Message>, role: string)
    ensures (exists i :: 0 <= i < |rest| && rest[i].role == role) ==>
      LastContent([m] + rest, role) == LastContent(rest, role)
    ensures (forall i :: 0 <= i < |rest| ==> rest[i].role != role) ==>
      LastContent([m] + rest, role) == (if m.role == role then m.content else "")
  {
    var ms := [m] + rest;
    if exists i :: 0 <= i < |rest| && rest[i].role == role {
      var i := LastWith(rest, role);
      assert ms[i + 1] == rest[i];
      assert forall j :: i + 1 < j < |ms| ==> ms[j] == rest[j - 1];
    } else {
      forall j | 0 < j < |ms|
        ensures ms[j].role != role
      {
        assert ms[j] == rest[j - 1];
      }
      assert ms[0] == m;
      if m.role != role {
        assert forall j :: 0 <= j < |ms| ==> ms[j].role != role;
      }
    }
  }

  lemma {:induction false} LastWith(ms: seq<Message>, role: string) returns (i: nat)
    requires exists i :: 0 <= i < |ms| && ms[i].role == role
    ensures i < |ms| && ms[i].role == role && forall j :: i < j < |ms| ==> ms[j].role != role
    decreases |ms|
  {
    var n := |ms| - 1;
    if ms[n].role == role {
      i := n;
    } else {
      var k :| 0 <= k < |ms| && ms[k].role == role;
      assert ms[..n][k] == ms[k];
      i := LastWith(ms[..n], role);
      assert ms[..n][i] == ms[i];
    }
  }

  /** The loop at lines 49-53 keeps, for each role, the content of the last
      message with that role, or "" when there is none. */
  lemma ScanRolesIsLast(ms: seq<Message>)
    ensures ScanRoles(ms, "", "") == (LastContent(ms, "system"), LastContent(ms, "user"))
  {
    ScanRolesFrom(ms, "", "");
  }

  /** `f"{system_message}\n\n{user_message}"`. */
  function Prompt(ms: seq<Message>): string {
    var (system, user) := ScanRoles(ms, "", "");
    system + "\n\n" + user
  }

  /** `user_message.split("'")[1] if "'" in user_message else "the topic"`:
      the text between the first and the second single quote. */
  function ExtractTopic(user: string): string {
    if '\'' in user then
      SplitCount(user, '\'');
      Split(user, '\'')[1]
    else "the topic"
  }

  /** A topic quoted after a lead without quotes is read back up to its
      first quote. */
  lemma QuotedTopic(lead: string, topic: string, tail: string)
    requires '\'' !in lead && '\'' !in topic
    ensures ExtractTopic(lead + "'" + topic + "'" + tail) == topic
  {
    assert lead + "'" + topic + "'" + tail == lead + ['\''] + (topic + ['\''] + tail);
    SplitAfterPiece(lead, '\'', topic + ['\''] + tail);
    SplitAfterPiece(topic, '\'', tail);
  }

  /** A topic without a single quote is read back exactly from its message. */
  lemma ExtractTopicRoundTrip(v: Variant, topic: string)
    requires '\'' !in topic
    ensures ExtractTopic(UserText(v, topic)) == topic
  {
    QuotedTopic(UserLead(v), topic, UserTail(v));
  }

  /** A topic with a single quote is cut at its first one. */
  lemma ExtractTopicTruncates(v: Variant, before: string, after: string)
    requires '\'' !in before
    ensures ExtractTopic(UserText(v, before + "'" + after)) == before
  {
    QuotedPrefix(UserLead(v), before, after, UserTail(v));
  }

  lemma QuotedPrefix(lead: string, before: string, after: string, tail: string)
    requires '\'' !in lead && '\'' !in before
    ensures ExtractTopic(lead + "'" + (before + "'" + after) + "'" + tail) == before
  {
    assert lead + "'" + (before + "'" + after) + "'" + tail == lead + "'" + before + "'" + (after + "'" + tail);
    QuotedTopic(lead, before, after + "'" + tail);
  }

  /** What `generate_content` returns (its `.text`) or raises for the prompt
      it is sent. */
  type Model = string -> Outcome<string>

  /** `ainvoke`: the model is sent the prompt built from the messages; the
      answer is its text, or the "unavailable" sentence for the topic read
      from the user message when the model call fails. It never raises. */
  function Invoke(v: Variant, ms: seq<Message>, model: Model): (answer: string)
    ensures model(Prompt(ms)).Ok? ==> answer == model(Prompt(ms)).value
    ensures model(Prompt(ms)).Err? ==> answer == Unavailable(v, ExtractTopic(LastContent(ms, "user")))
  {
    ScanRolesIsLast(ms);
    match model(Prompt(ms))
    case Ok(text) => text
    case Err(_) => Unavailable(v, ExtractTopic(ScanRoles(ms, "", "").1))
  }

  /** For a system message followed by a user message, the prompt is the
      system text, a blank line, and the user text. */
  lemma PromptOfPair(system: string, user: string)
    ensures Prompt([Message("system", system), Message("user", user)]) == system + "\n\n" + user
  {
    ScanRolesIsLast([Message("system", system), Message("user", user)]);
  }

  lemma PromptOfMessages(v: Variant, topic: string, cutoff: string)
    ensures Prompt(Messages(v, topic, cutoff)) == SystemText(v, cutoff) + "\n\n" + UserText(v, topic)
  {
    PromptOfPair(SystemText(v, cutoff), UserText(v, topic));
  }

  /** A model that fails on the prompt of a system and a user message gives
      the "unavailable" sentence for the topic read from the user message. */
  lemma FailureOfPair(v: Variant, system: string, user: string, model: Model)
    requires model(system + "\n\n" + user).Err?
    ensures Invoke(v, [Message("system", system), Message("user", user)], model) == Unavailable(v, ExtractTopic(user))
  {
    var ms := [Message("system", system), Message("user", user)];
    PromptOfPair(system, user);
    assert ms[1].role == "user";
  }

  /** A model that answers the prompt of a system and a user message has
      its text passed on as it is. */
  lemma AnswerOfPair(v: Variant, system: string, user: string, model: Model)
    requires model(system + "\n\n" + user).Ok?
    ensures Invoke(v, [Message("system", system), Message("user", user)], model) == model(system + "\n\n" + user).value
  {
    PromptOfPair(system, user);
  }

  /** When the model fails on a topic without a single quote, the agent's
      answer names exactly that topic. */
  lemma FailureNamesTopic(v: Variant, topic: string, cutoff: string, model: Model)
    requires '\'' !in topic
    requires model(SystemText(v, cutoff) + "\n\n" + UserText(v, topic)).Err?
    ensures Invoke(v, Messages(v, topic, cutoff), model) == Unavailable(v, topic)
  {
    FailureOfPair(v, SystemText(v, cutoff), UserText(v, topic), model);
    ExtractTopicRoundTrip(v, topic);
  }

  /** The model is sent the system text, a blank line and the user text of
      the topic, and its answer is the agent's. */
  lemma AnswerForTopic(v: Variant, topic: string, cutoff: string, model: Model)
    requires model(SystemText(v, cutoff) + "\n\n" + UserText(v, topic)).Ok?
    ensures Invoke(v, Messages(v, topic, cutoff), model) == model(SystemText(v, cutoff) + "\n\n" + UserText(v, topic)).value
  {
    AnswerOfPair(v, SystemText(v, cutoff), UserText(v, topic), model);
  }

  // ---------------------------------------------------------------------------
  // process_topic

  datatype AgentError = Overloaded | Other(message: string)

  /** The `except` at lines 109-113: an error whose text mentions
      "Overloaded" becomes `MCPOverloadedError`, any other is re-raised. */
  function Classify(message: string): (e: AgentError)
    ensures e.Overloaded? <==> Contains(message, "Overloaded")
    ensures e.Other? ==> e.message == message
  {
    if Contains(message, "Overloaded") then Overloaded else Other(message)
  }

  /** `str(e)` of the error that leaves `process_topic`. */
  function ErrorText(e: AgentError): string {
    match e
    case Overloaded => "Service overloaded"
    case Other(m) => m
  }

  function Classified(attempts: seq<Outcome<string>>): (steps: seq<Result<string, AgentError>>)
    ensures |steps| == |attempts|
    ensures forall j :: 0 <= j < |attempts| ==>
      && (steps[j].Ok? <==> attempts[j].Ok?)
      && (steps[j].Ok? ==> steps[j].value == attempts[j].value)
      && (steps[j].Err? ==> steps[j].error == Classify(attempts[j].error))
  {
    seq(|attempts|, j requires 0 <= j < |attempts| =>
      match attempts[j]
      case Ok(text) => Ok(text)
      case Err(m) => Err(Classify(m)))
  }

  /** `process_topic` under its retry decorator; `attempts[j]` is what the
      agent call of attempt `j + 1` returns or raises. */
  function ProcessTopic(attempts: seq<Outcome<string>>): (run: Retry.Attempted<string, AgentError>)
    requires |attempts| == Retry.AgentPolicy.maxAttempts
    ensures 1 <= run.attempts <= 3
    ensures forall j :: 0 <= j < run.attempts - 1 ==> attempts[j].Err? && Contains(attempts[j].error, "Overloaded")
    ensures run.result.Ok? ==> attempts[run.attempts - 1] == Ok(run.result.value)
    ensures run.result.Err? ==>
      && attempts[run.attempts - 1].Err?
      && run.result.error == Classify(attempts[run.attempts - 1].error)
    ensures run.result.Err? && run.result.error.Overloaded? ==> run.attempts == 3
    ensures forall j :: 0 <= j < |run.waits| ==> 15 <= run.waits[j] <= 60
  {
    Retry.Run(Retry.AgentPolicy, (e: AgentError) => e.Overloaded?, Classified(attempts))
  }

  /** A result or a non-"Overloaded" error on the first attempt ends the run
      there. */
  lemma FirstAttemptFinal(attempts: seq<Outcome<string>>)
    requires |attempts| == 3
    requires attempts[0].Ok? || !Contains(attempts[0].error, "Overloaded")
    ensures ProcessTopic(attempts).attempts == 1
    ensures ProcessTopic(attempts).result.Ok? <==> attempts[0].Ok?
  {
    Retry.RunStopsAtFirstFinal(Retry.AgentPolicy, (e: AgentError) => e.Overloaded?, Classified(attempts), 0);
  }

  /** Three "Overloaded" errors in a row exhaust the attempts, waiting 15
      seconds twice, and re-raise `MCPOverloadedError("Service overloaded")`. */
  lemma OverloadedThrice(attempts: seq<Outcome<string>>)
    requires |attempts| == 3
    requires forall j :: 0 <= j < 3 ==> attempts[j].Err? && Contains(attempts[j].error, "Overloaded")
    ensures ProcessTopic(attempts).attempts == 3
    ensures ProcessTopic(attempts).result == Err(Overloaded)
    ensures ProcessTopic(attempts).waits == [15, 15]
    ensures ErrorText(ProcessTopic(attempts).result.error) == "Service overloaded"
  {
    var steps := Classified(attempts);
    assert Retry.Backoff(Retry.AgentPolicy, 1) == 15;
    assert Retry.Backoff(Retry.AgentPolicy, 2) == 15 by {
      assert Retry.Pow2(1) == 2;
    }
  }

  /** Two "Overloaded" errors and then an answer: the third attempt's answer
      is the result, after two waits of 15 seconds. */
  lemma OverloadedThenAnswer(attempts: seq<Outcome<string>>)
    requires |attempts| == 3
    requires forall j :: 0 <= j < 2 ==> attempts[j].Err? && Contains(attempts[j].error, "Overloaded")
    requires attempts[2].Ok?
    ensures ProcessTopic(attempts) == Retry.Attempted(Ok(attempts[2].value), 3, [15, 15])
  {
    assert Retry.Backoff(Retry.AgentPolicy, 1) == 15;
    assert Retry.Backoff(Retry.AgentPolicy, 2) == 15 by {
      assert Retry.Pow2(1) == 2;
    }
  }

  // ---------------------------------------------------------------------------
  // scrape_reddit_topics / scrape_twitter_topics

  /** The loop at lines 127-132: topics in order, stopping at the first one
      whose processing raises. */
  function RunTopics(attempts: seq<seq<Outcome<string>>>): (r: Result<seq<string>, string>)
    requires forall i :: 0 <= i < |attempts| ==> |attempts[i]| == 3
    ensures r.Ok? <==> forall i :: 0 <= i < |attempts| ==> ProcessTopic(attempts[i]).result.Ok?
    ensures r.Ok? ==> (|r.value| == |attempts|
      && forall i :: 0 <= i < |attempts| ==> r.value[i] == ProcessTopic(attempts[i]).result.value)
    decreases |attempts|
  {
    if attempts == [] then Ok([])
    else
      var tail := attempts[1..];
      assert forall i :: 1 <= i < |attempts| ==> attempts[i] == tail[i - 1];
      match ProcessTopic(attempts[0]).result
      case Err(e) => Err(ErrorText(e))
      case Ok(summary) =>
        match RunTopics(tail)
        case Err(m) => Err(m)
        case Ok(rest) => Ok([summary] + rest)
  }

  /** The `except` branch at lines 137-142: every topic gets the
      "unavailable" sentence. */
  function Fallback(v: Variant, topics: seq<string>): (m: map<string, string>)
    ensures m.Keys == Dicts.KeySet(topics)
    ensures forall t :: t in m ==> m[t] == Unavailable(v, t)
  {
    var values := seq(|topics|, i requires 0 <= i < |topics| => Unavailable(v, topics[i]));
    Dicts.AssignUniform(topics, values, t => Unavailable(v, t));
    Dicts.Assign(topics, values)
  }

  /** The collector: `session` is the outcome of the whole MCP session
      (opening it, loading its tools, and closing it once the loop has
      returned: an error on closing also reaches the handler at reddit_scraper.py:137),
      `attempts[i]` what the agent returns or raises on
      each attempt for `topics[i]`. Every topic is a key; either every topic
      has its summary (the last one for a repeated topic), or, when the
      session or any topic raised, every topic has the "unavailable" sentence,
      including those already done. */
  function ScrapeTopics(v: Variant, topics: seq<string>, session: Outcome<()>, attempts: seq<seq<Outcome<string>>>): (r: map<string, string>)
    requires |attempts| == |topics|
    requires forall i :: 0 <= i < |attempts| ==> |attempts[i]| == 3
    ensures r.Keys == Dicts.KeySet(topics)
    ensures forall i :: 0 <= i < |topics| ==> topics[i] in r
    ensures session.Ok? && (forall i :: 0 <= i < |topics| ==> ProcessTopic(attempts[i]).result.Ok?) ==>
      forall i :: 0 <= i < |topics| && Dicts.IsLast(topics, i) ==> r[topics[i]] == ProcessTopic(attempts[i]).result.value
    ensures session.Err? || (exists i :: 0 <= i < |topics| && ProcessTopic(attempts[i]).result.Err?) ==>
      forall t :: t in r ==> r[t] == Unavailable(v, t)
  {
    if session.Err? then Fallback(v, topics)
    else
      match RunTopics(attempts)
      case Err(_) => Fallback(v, topics)
      case Ok(summaries) => Dicts.Assign(topics, summaries)
  }

  // ---------------------------------------------------------------------------
  // The collectors with the Gemini agents of the repository

  /** An agent that never raises is asked once: its first answer is the
      topic's result, with no wait. */
  lemma AnswersNeverRetry(attempts: seq<Outcome<string>>)
    requires |attempts| == 3 && forall j :: 0 <= j < 3 ==> attempts[j].Ok?
    ensures ProcessTopic(attempts) == Retry.Attempted(Ok(attempts[0].value), 1, [])
  {
    FirstAttemptFinal(attempts);
  }

  /** What each attempt returns for a topic when the agent is `GeminiAgent`
      or `TwitterAgent`: `replies[j]` is how Gemini answers on attempt
      `j + 1`, and the agent turns its answer into the attempt's result. */
  function GeminiAttempts(v: Variant, ms: seq<Message>, replies: seq<Model>): (attempts: seq<Outcome<string>>)
    requires |replies| == 3
    ensures |attempts| == 3 && forall j :: 0 <= j < 3 ==> attempts[j] == Ok(Invoke(v, ms, replies[j]))
  {
    seq(3, j requires 0 <= j < 3 => Ok(Invoke(v, ms, replies[j])))
  }

  /** Since the agents never raise, the "Overloaded" retry never fires: one
      attempt, whose answer is the agent's. */
  lemma GeminiNeverRetries(v: Variant, ms: seq<Message>, replies: seq<Model>)
    requires |replies| == 3
    ensures ProcessTopic(GeminiAttempts(v, ms, replies)) == Retry.Attempted(Ok(Invoke(v, ms, replies[0])), 1, [])
  {
    AnswersNeverRetry(GeminiAttempts(v, ms, replies));
  }

  /** The messages `process_topic` sends for each topic. */
  function TopicMessages(v: Variant, topics: seq<string>, cutoff: string): (msgs: seq<seq<Message>>)
    ensures |msgs| == |topics|
    ensures forall i :: 0 <= i < |topics| ==> msgs[i] == Messages(v, topics[i], cutoff)
  {
    seq(|topics|, i requires 0 <= i < |topics| => Messages(v, topics[i], cutoff))
  }

  function GeminiTopicAttempts(v: Variant, msgs: seq<seq<Message>>, replies: seq<seq<Model>>): (attempts: seq<seq<Outcome<string>>>)
    requires |replies| == |msgs|
    requires forall i :: 0 <= i < |replies| ==> |replies[i]| == 3
    ensures |attempts| == |msgs|
    ensures forall i :: 0 <= i < |msgs| ==> |attempts[i]| == 3
    ensures forall i :: 0 <= i < |msgs| ==> attempts[i] == GeminiAttempts(v, msgs[i], replies[i])
  {
    seq(|msgs|, i requires 0 <= i < |msgs| => GeminiAttempts(v, msgs[i], replies[i]))
  }

  /** `scrape_reddit_topics` / `scrape_twitter_topics` as the repository
      wires them. When the session opens, loads its tools and closes without
      raising, every topic gets its agent's
      answer to its own messages: Gemini's text, or, when Gemini fails on
      it, the "unavailable" sentence naming the topic read back from its
      user message. That is the topic itself when it has no single quote
      (`FailureNamesTopic`) and the part before its first single quote
      otherwise (`ExtractTopicTruncates`). Other topics are unaffected. */
  function ScrapeWithGemini(v: Variant, topics: seq<string>, cutoff: string, session: Outcome<()>, replies: seq<seq<Model>>): (r: map<string, string>)
    requires |replies| == |topics|
    requires forall i :: 0 <= i < |replies| ==> |replies[i]| == 3
    ensures r.Keys == Dicts.KeySet(topics)
    ensures session.Ok? ==> forall i :: 0 <= i < |topics| && Dicts.IsLast(topics, i) ==>
      r[topics[i]] == Invoke(v, TopicMessages(v, topics, cutoff)[i], replies[i][0])
  {
    var msgs := TopicMessages(v, topics, cutoff);
    if session.Ok? then
      GeminiAnswersCollected(v, topics, session, msgs, replies);
      ScrapeTopics(v, topics, session, GeminiTopicAttempts(v, msgs, replies))
    else
      ScrapeTopics(v, topics, session, GeminiTopicAttempts(v, msgs, replies))
  }

  /** Agents that never raise: when the session (opening, tools, closing)
      raises nothing, every topic gets its first answer. */
  lemma AnswersCollected(v: Variant, topics: seq<string>, session: Outcome<()>, attempts: seq<seq<Outcome<string>>>)
    requires session.Ok?
    requires |attempts| == |topics|
    requires forall i :: 0 <= i < |attempts| ==> |attempts[i]| == 3 && forall j :: 0 <= j < 3 ==> attempts[i][j].Ok?
    ensures forall i :: 0 <= i < |topics| && Dicts.IsLast(topics, i) ==>
      ScrapeTopics(v, topics, session, attempts)[topics[i]] == attempts[i][0].value
  {
    forall i | 0 <= i < |topics|
      ensures ProcessTopic(attempts[i]).result == Ok(attempts[i][0].value)
    {
      AnswersNeverRetry(attempts[i]);
    }
  }

  /** Agents built on Gemini: when the session (opening, tools, closing)
      raises nothing, every topic gets the answer to its own messages. */
  lemma GeminiAnswersCollected(v: Variant, topics: seq<string>, session: Outcome<()>, msgs: seq<seq<Message>>, replies: seq<seq<Model>>)
    requires session.Ok?
    requires |msgs| == |topics| && |replies| == |topics|
    requires forall i :: 0 <= i < |replies| ==> |replies[i]| == 3
    ensures forall i :: 0 <= i < |topics| && Dicts.IsLast(topics, i) ==>
      ScrapeTopics(v, topics, session, GeminiTopicAttempts(v, msgs, replies))[topics[i]] == Invoke(v, msgs[i], replies[i][0])
  {
    AnswersCollected(v, topics, session, GeminiTopicAttempts(v, msgs, replies));
  }

  /** A session that raises, on opening or on closing, brings in the
      whole-batch fallback whatever the topics would have given. */
  lemma SessionFailureFallback(v: Variant, topics: seq<string>, error: string, attempts: seq<seq<Outcome<string>>>)
    requires |attempts| == |topics|
    requires forall i :: 0 <= i < |attempts| ==> |attempts[i]| == 3
    ensures ScrapeTopics(v, topics, Err(error), attempts) == Fallback(v, topics)
  {
  }

  lemma GeminiCollectorSessionFailure(v: Variant, topics: seq<string>, cutoff: string, error: string, replies: seq<seq<Model>>)
    requires |replies| == |topics|
    requires forall i :: 0 <= i < |replies| ==> |replies[i]| == 3
    ensures ScrapeWithGemini(v, topics, cutoff, Err(error), replies) == Fallback(v, topics)
  {
    SessionFailureFallback(v, topics, error, GeminiTopicAttempts(v, TopicMessages(v, topics, cutoff), replies));
  }
}

=== FILE: backend.dfy ===
/** The `/generate-news-audio` request handler (backend.py:26-138): run the
    collectors the source type selects, substitute placeholder analyses for
    a social collector that raised, compose the English script, translate it
    unless the language is "en-US", synthesise it with the voice of the
    language, and answer with the script and metadata, or with HTTP 500 and
    the error's text when anything raised.

    What each collector, the two Gemini calls, Murf and the file system do is
    given as parameters; `RepoCollected` wires in the repository's own
    collectors. */
module Backend {
  import opened Wrappers
  import opened Text
  import Dicts
  import Composer
  import Language
  import NewsScraper
  import Agents

  /** The request body (models.py:4-7); `language` defaults to "en-US". */
  datatype NewsRequest = NewsRequest(topics: seq<string>, sourceType: string, language: string)

  const DefaultLanguage: string := "en-US"

  /** The source types the front end offers (frontend.py:8). */
  const SourceTypes: seq<string> := ["news", "reddit", "twitter", "both", "all"]

  datatype Selection = Selection(news: bool, reddit: bool, twitter: bool)

  /** The three membership tests at lines 38, 48 and 61. */
  function Select(sourceType: string): (sel: Selection)
    ensures sel.reddit && sel.twitter ==> sel.news
    ensures sel.news && !sel.reddit ==> sourceType == "news"
    ensures sel.twitter && !sel.news ==> sourceType == "twitter"
  {
    Selection(
      sourceType in {"news", "both", "all"},
      sourceType in {"reddit", "both", "all"},
      sourceType in {"twitter", "all"})
  }

  /** What each offered source type runs, and that anything else runs no
      collector at all. */
  lemma SelectionTable(sourceType: string)
    ensures Select("news") == Selection(true, false, false)
    ensures Select("reddit") == Selection(false, true, false)
    ensures Select("twitter") == Selection(false, false, true)
    ensures Select("both") == Selection(true, true, false)
    ensures Select("all") == Selection(true, true, true)
    ensures sourceType !in SourceTypes ==> Select(sourceType) == Selection(false, false, false)
  {
  }

  /** What each collector returned or raised when it ran. */
  datatype Collected = Collected(
    news: Outcome<map<string, string>>,
    reddit: Outcome<map<string, string>>,
    twitter: Outcome<map<string, string>>)

  /** `{t: text for t in req.topics}`. */
  function Uniform(topics: seq<string>, text: string): (m: map<string, string>)
    ensures m.Keys == Dicts.KeySet(topics)
    ensures forall t :: t in m ==> m[t] == text
  {
    var values := seq(|topics|, i requires 0 <= i < |topics| => text);
    Dicts.AssignUniform(topics, values, t => text);
    Dicts.Assign(topics, values)
  }

  /** The analyses handed to the composer (lines 37-71), or the news
      collector's error, which has no local handler. A selected social
      collector that raised is replaced by its placeholder map; an unselected
      source is `None`. */
  function Gather(req: NewsRequest, c: Collected): (r: Outcome<Composer.Bundle>)
    ensures var sel := Select(req.sourceType);
      && (r.Err? <==> sel.news && c.news.Err?)
      && (r.Err? ==> r.error == c.news.error)
      && (r.Ok? ==>
        && (r.value.news.Some? <==> sel.news)
        && (r.value.reddit.Some? <==> sel.reddit)
        && (r.value.twitter.Some? <==> sel.twitter)
        && (sel.news ==> r.value.news == Some(c.news.value))
        && (sel.reddit && c.reddit.Ok? ==> r.value.reddit == Some(c.reddit.value))
        && (sel.reddit && c.reddit.Err? ==> r.value.reddit == Some(Uniform(req.topics, "Reddit unavailable")))
        && (sel.twitter && c.twitter.Ok? ==> r.value.twitter == Some(c.twitter.value))
        && (sel.twitter && c.twitter.Err? ==> r.value.twitter == Some(Uniform(req.topics, "Twitter unavailable"))))
  {
    var sel := Select(req.sourceType);
    if sel.news && c.news.Err? then Err(c.news.error)
    else
      var news := if sel.news then Some(c.news.value) else None;
      var reddit :=
        if !sel.reddit then None
        else if c.reddit.Ok? then Some(c.reddit.value)
        else Some(Uniform(req.topics, "Reddit unavailable"));
      var twitter :=
        if !sel.twitter then None
        else if c.twitter.Ok? then Some(c.twitter.value)
        else Some(Uniform(req.topics, "Twitter unavailable"));
      Ok(Composer.Bundle(news, reddit, twitter))
  }

  /** A source the request did not select adds nothing to the prompt: the
      prompt is the one built from the same analyses with that source empty. */
  lemma UnselectedAddsNothing(req: NewsRequest, c: Collected, s: Composer.Source)
    requires Gather(req, c).Ok?
    requires Composer.Analysis(Gather(req, c).value, s).None?
    ensures var b := Gather(req, c).value;
      Composer.UserPrompt(b, req.topics) == Composer.UserPrompt(Composer.WithAnalysis(b, s, Some(map[])), req.topics)
  {
    var b := Gather(req, c).value;
    assert Composer.WithAnalysis(b, s, None) == b by {
      match s
      case News =>
      case Reddit =>
      case Twitter =>
    }
    Composer.NoneActsAsEmpty(b, s, req.topics);
  }

  // ---------------------------------------------------------------------------
  // Murf

  /** The synthesis request `text_to_audio_murf` sends (utils.py:265-273),
      with its defaults: MP3, 44100 Hz, stereo, pitch 0, rate 1.0. */
  datatype SpeechRequest = SpeechRequest(
    text: string, voiceId: string, format: string, sampleRate: nat, channelType: string, pitch: int, rate: real)

  function SpeechFor(text: string, voiceId: string): SpeechRequest {
    SpeechRequest(text, voiceId, "MP3", 44100, "STEREO", 0, 1.0)
  }

  /** What the Murf side of a request does: the API key found, the audio URL
      the synthesis call returns for a request ("" when the response has
      none) or its error, the outcome of the download, and the timestamp in
      the file name. */
  datatype MurfIO = MurfIO(
    apiKey: string,
    generate: SpeechRequest -> Outcome<string>,
    download: Outcome<()>,
    stamp: string)

  function AudioPath(stamp: string): string {
    "audio/tts_" + stamp + ".mp3"
  }

  /** `text_to_audio_murf`: the path of the written file, or the error that
      stopped it. */
  function TextToAudio(text: string, voiceId: string, io: MurfIO): (r: Outcome<string>)
    ensures r.Ok? ==> r.value == AudioPath(io.stamp) && r.value != ""
    ensures r.Ok? <==> io.apiKey != "" && io.generate(SpeechFor(text, voiceId)).Ok?
                       && io.generate(SpeechFor(text, voiceId)).value != "" && io.download.Ok?
    ensures io.apiKey == "" ==> r == Err("MURF_API_KEY missing")
    ensures io.apiKey != "" && io.generate(SpeechFor(text, voiceId)) == Ok("") ==> r == Err("Murf response missing audio URL")
  {
    if io.apiKey == "" then Err("MURF_API_KEY missing")
    else
      match io.generate(SpeechFor(text, voiceId))
      case Err(e) => Err(e)
      case Ok(url) =>
        if url == "" then Err("Murf response missing audio URL")
        else if io.download.Err? then Err(io.download.error)
        else Ok(AudioPath(io.stamp))
  }

  // ---------------------------------------------------------------------------
  // The handler

  datatype Metadata = Metadata(topics: seq<string>, sources: string, language: string)

  /** The JSON answer, or the `HTTPException`; the audio is given by the
      file it is read from. */
  datatype Response =
    | Success(summaryText: string, audioFile: string, metadata: Metadata)
    | Failure(status: nat, detail: string)

  /** The text that is spoken: the English summary for "en-US", otherwise
      `translate_for_language`'s result (lines 88-96). */
  function FinalText(summary: string, language: string, translate: string -> Outcome<string>): (r: Outcome<string>)
    ensures StartsWith(language, "en") ==> r == Ok(summary)
    ensures !StartsWith(language, "en") ==> r == Language.TranslateForLanguage(summary, language, translate)
  {
    if language != DefaultLanguage then Language.TranslateForLanguage(summary, language, translate)
    else Ok(summary)
  }

  /** `generate_news_audio`, with the voice chosen by `voiceFor` from the
      request's language. `compose` is the Gemini call of
      `generate_broadcast_news` given the user prompt, `translate` the one of
      `translate_for_language`, `onDisk` whether a file is on disk. Every
      exception becomes HTTP 500 with its text as the detail. */
  function Handle(req: NewsRequest, c: Collected, compose: string -> Outcome<string>,
                  translate: string -> Outcome<string>, voiceFor: string -> string,
                  murf: MurfIO, onDisk: string -> bool): (r: Response)
    ensures r.Failure? ==> r.status == 500
    ensures r.Success? ==>
      && Gather(req, c).Ok?
      && compose(Composer.UserPrompt(Gather(req, c).value, req.topics)).Ok?
      && FinalText(compose(Composer.UserPrompt(Gather(req, c).value, req.topics)).value, req.language, translate) == Ok(r.summaryText)
      && TextToAudio(r.summaryText, voiceFor(req.language), murf) == Ok(r.audioFile)
      && onDisk(r.audioFile)
      && r.metadata == Metadata(req.topics, req.sourceType, req.language)
    ensures Gather(req, c).Err? ==> r == Failure(500, Gather(req, c).error)
    ensures Gather(req, c).Ok? ==>
      var summary := compose(Composer.UserPrompt(Gather(req, c).value, req.topics));
      && (summary.Err? ==> r == Failure(500, summary.error))
      && (summary.Ok? ==>
        var text := FinalText(summary.value, req.language, translate);
        && (text.Err? ==> r == Failure(500, text.error))
        && (text.Ok? ==>
          var audio := TextToAudio(text.value, voiceFor(req.language), murf);
          && (audio.Err? ==> r == Failure(500, audio.error))
          && (audio.Ok? && !onDisk(audio.value) ==> r == Failure(500, "Audio generation failed"))
          && (audio.Ok? && onDisk(audio.value) ==>
                r == Success(text.value, audio.value, Metadata(req.topics, req.sourceType, req.language)))))
  {
    match Gather(req, c)
    case Err(e) => Failure(500, e)
    case Ok(bundle) =>
      match compose(Composer.UserPrompt(bundle, req.topics))
      case Err(e) => Failure(500, e)
      case Ok(summary) =>
        match FinalText(summary, req.language, translate)
        case Err(e) => Failure(500, e)
        case Ok(text) =>
          match TextToAudio(text, voiceFor(req.language), murf)
          case Err(e) => Failure(500, e)
          case Ok(path) =>
            if !(path != "" && onDisk(path)) then Failure(500, "Audio generation failed")
            else Success(text, path, Metadata(req.topics, req.sourceType, req.language))
  }

  /** The handler as written (line 101): the voice is
      `get_voice_for_language(req.language)`. */
  function GenerateNewsAudio(req: NewsRequest, c: Collected, compose: string -> Outcome<string>,
                             translate: string -> Outcome<string>, murf: MurfIO, onDisk: string -> bool): (r: Response)
    ensures r.Success? ==> TextToAudio(r.summaryText, Language.VoiceForLanguage(req.language), murf) == Ok(r.audioFile)
  {
    Handle(req, c, compose, translate, Language.VoiceForLanguage, murf, onDisk)
  }

  /** Since the front end sends locale codes, every request with a region
      part, the default "en-US" included, is spoken with the default voice by
      the handler as written. */
  lemma LocaleRequestsSpeakDefault(req: NewsRequest, c: Collected, compose: string -> Outcome<string>,
                                   translate: string -> Outcome<string>, murf: MurfIO, onDisk: string -> bool)
    requires '-' in req.language
    ensures var r := GenerateNewsAudio(req, c, compose, translate, murf, onDisk);
      r.Success? ==> TextToAudio(r.summaryText, Language.DefaultVoice, murf) == Ok(r.audioFile)
  {
    Language.LocaleGetsDefault(req.language);
  }

  /** The handler with the locale lookup: the language part of the request's
      locale chooses the voice. */
  function GenerateNewsAudioByLocale(req: NewsRequest, c: Collected, compose: string -> Outcome<string>,
                                     translate: string -> Outcome<string>, murf: MurfIO, onDisk: string -> bool): (r: Response)
    ensures r.Success? ==> TextToAudio(r.summaryText, Language.VoiceForLocale(req.language), murf) == Ok(r.audioFile)
  {
    Handle(req, c, compose, translate, Language.VoiceForLocale, murf, onDisk)
  }

  /** A Hindi request is spoken with the default English voice by the handler
      as written, and with the Hindi voice by the locale lookup. */
  lemma HindiRequestVoices(req: NewsRequest, c: Collected, compose: string -> Outcome<string>,
                           translate: string -> Outcome<string>, murf: MurfIO, onDisk: string -> bool)
    requires req.language == "hi-IN"
    ensures var r := GenerateNewsAudio(req, c, compose, translate, murf, onDisk);
      r.Success? ==> TextToAudio(r.summaryText, "en-US-natalie", murf) == Ok(r.audioFile)
    ensures var r := GenerateNewsAudioByLocale(req, c, compose, translate, murf, onDisk);
      r.Success? ==> TextToAudio(r.summaryText, "shweta", murf) == Ok(r.audioFile)
  {
    Language.HindiLocaleVoice();
  }

  /** For every language starting with "en", "en-IN" included, the spoken text
      is the English summary: the handler translates, but the translation
      returns its input untouched. */
  lemma EnglishSpeaksSummary(req: NewsRequest, c: Collected, compose: string -> Outcome<string>,
                             translate: string -> Outcome<string>, murf: MurfIO, onDisk: string -> bool)
    requires StartsWith(req.language, "en")
    ensures var r := GenerateNewsAudio(req, c, compose, translate, murf, onDisk);
      r.Success? ==> r.summaryText == compose(Composer.UserPrompt(Gather(req, c).value, req.topics)).value
  {
  }

  /** A request fails with "Audio generation failed" exactly when every step
      succeeded but the written file is not on disk. */
  lemma MissingFileFails(req: NewsRequest, c: Collected, compose: string -> Outcome<string>,
                         translate: string -> Outcome<string>, murf: MurfIO, onDisk: string -> bool, text: string)
    requires Gather(req, c).Ok?
    requires compose(Composer.UserPrompt(Gather(req, c).value, req.topics)).Ok?
    requires FinalText(compose(Composer.UserPrompt(Gather(req, c).value, req.topics)).value, req.language, translate) == Ok(text)
    requires TextToAudio(text, Language.VoiceForLanguage(req.language), murf).Ok?
    ensures GenerateNewsAudio(req, c, compose, translate, murf, onDisk)
         == (if onDisk(AudioPath(murf.stamp)) then Success(text, AudioPath(murf.stamp), Metadata(req.topics, req.sourceType, req.language))
             else Failure(500, "Audio generation failed"))
  {
  }

  // ---------------------------------------------------------------------------
  // The repository's collectors

  /** What the repository's collectors return: `scrape_news` never raises
      (the retry around it makes one attempt, `NewsScraper.NewsNeverRetries`),
      and neither do the Reddit and Twitter collectors. */
  function RepoCollected(news: map<string, string>, reddit: map<string, string>, twitter: map<string, string>): (c: Collected)
    ensures c.news.Ok? && c.reddit.Ok? && c.twitter.Ok?
  {
    Collected(Ok(news), Ok(reddit), Ok(twitter))
  }

  /** With the repository's collectors the request never fails before the
      composer, and the "Reddit unavailable" and "Twitter unavailable" maps
      never reach it: each selected source hands over its collector's map. */
  lemma RepoCollectorsReachComposer(req: NewsRequest, news: map<string, string>, reddit: map<string, string>, twitter: map<string, string>)
    ensures var sel := Select(req.sourceType);
      && Gather(req, RepoCollected(news, reddit, twitter))
         == Ok(Composer.Bundle(
              if sel.news then Some(news) else None,
              if sel.reddit then Some(reddit) else None,
              if sel.twitter then Some(twitter) else None))
  {
  }

  /** The maps the repository's collectors produce for a request: the news
      collector reduces each page with the HTML parser `getText` and
      `extract_headlines`. */
  function RepoAnalyses(
    topics: seq<string>, newsIO: seq<NewsScraper.TopicIO>, getText: string -> string,
    cutoff: string, redditSession: Outcome<()>, redditReplies: seq<seq<Agents.Model>>,
    twitterSession: Outcome<()>, twitterReplies: seq<seq<Agents.Model>>): (c: Collected)
    requires |newsIO| == |topics| && |redditReplies| == |topics| && |twitterReplies| == |topics|
    requires forall i :: 0 <= i < |topics| ==> |redditReplies[i]| == 3 && |twitterReplies[i]| == 3
    ensures c.news.Ok? && c.news.value.Keys == Dicts.KeySet(topics)
    ensures c.reddit.Ok? && c.reddit.value.Keys == Dicts.KeySet(topics)
    ensures c.twitter.Ok? && c.twitter.value.Keys == Dicts.KeySet(topics)
  {
    RepoCollected(
      NewsScraper.ScrapeNews(topics, newsIO, NewsScraper.PageHeadlines(getText)).analysis,
      Agents.ScrapeWithGemini(Agents.Reddit, topics, cutoff, redditSession, redditReplies),
      Agents.ScrapeWithGemini(Agents.Twitter, topics, cutoff, twitterSession, twitterReplies))
  }
}

=== FILE: composer.dfy ===
/** The user prompt that `generate_broadcast_news` builds from the collected
    material (utils.py:158-181): one block per topic that has material from
    at least one source, its sections in the order news, Reddit, Twitter,
    the blocks in topic order after a fixed header. The model call that
    turns the prompt into the script is a parameter of the request handler
    (see `Backend`). */
module Composer {
  import opened Wrappers
  import opened Text
  import opened Seqs

  datatype Source = News | Reddit | Twitter

  /** The per-topic analyses each collector handed over, or `None` for a
      collector that did not run. */
  datatype Bundle = Bundle(
    news: Option<map<string, string>>,
    reddit: Option<map<string, string>>,
    twitter: Option<map<string, string>>)

  function Analysis(b: Bundle, s: Source): Option<map<string, string>> {
    match s
    case News => b.news
    case Reddit => b.reddit
    case Twitter => b.twitter
  }

  /** `data["…_analysis"].get(topic) if data else ''`, where a missing key
      gives `None`; both are falsy, like the empty string. */
  function ContentOf(b: Bundle, s: Source, topic: string): string {
    match Analysis(b, s)
    case None => ""
    case Some(m) => if topic in m then m[topic] else ""
  }

  function Heading(s: Source): string {
    match s
    case News => "OFFICIAL NEWS CONTENT:\n"
    case Reddit => "REDDIT DISCUSSION CONTENT:\n"
    case Twitter => "TWITTER DISCUSSION CONTENT:\n"
  }

  /** Position of a source in the prompt: news first, then the social sources. */
  function Rank(s: Source): nat {
    match s
    case News => 0
    case Reddit => 1
    case Twitter => 2
  }

  predicate HasMaterial(b: Bundle, topic: string) {
    ContentOf(b, News, topic) != "" || ContentOf(b, Reddit, topic) != "" || ContentOf(b, Twitter, topic) != ""
  }

  /** The sources that contribute a section for `topic`, in prompt order. */
  function Context(b: Bundle, topic: string): (ctx: seq<Source>)
    ensures forall s :: s in ctx <==> ContentOf(b, s, topic) != ""
    ensures forall i, j :: 0 <= i < j < |ctx| ==> Rank(ctx[i]) < Rank(ctx[j])
    ensures ctx != [] <==> HasMaterial(b, topic)
  {
    (if ContentOf(b, News, topic) != "" then [News] else [])
    + (if ContentOf(b, Reddit, topic) != "" then [Reddit] else [])
    + (if ContentOf(b, Twitter, topic) != "" then [Twitter] else [])
  }

  /** One section per listed source: its heading, then its content. */
  function Sections(b: Bundle, ctx: seq<Source>, topic: string): (secs: seq<string>)
    ensures |secs| == |ctx|
    ensures forall i :: 0 <= i < |ctx| ==> secs[i] == Heading(ctx[i]) + ContentOf(b, ctx[i], topic)
    decreases |ctx|
  {
    if ctx == [] then []
    else [Heading(ctx[0]) + ContentOf(b, ctx[0], topic)] + Sections(b, ctx[1..], topic)
  }

  function BlockHead(topic: string): string {
    "TOPIC: " + topic + "\n\n"
  }

  const SectionSeparator: string := "\n\n"

  /** The block for one topic, or `None` when no source has material for it. */
  function TopicBlock(b: Bundle, topic: string): (block: Option<string>)
    ensures block.Some? <==> HasMaterial(b, topic)
    ensures block.Some? ==> StartsWith(block.value, BlockHead(topic))
  {
    var ctx := Context(b, topic);
    if ctx == [] then None
    else Some(BlockHead(topic) + Join(Sections(b, ctx, topic), SectionSeparator))
  }

  /** The blocks of the topics with material, in topic order. */
  function TopicBlocks(b: Bundle, topics: seq<string>): (blocks: seq<string>)
    ensures |blocks| <= |topics|
  {
    FilterMap((t: string) => TopicBlock(b, t), topics)
  }

  const Header: string := "Create broadcast segments for these topics using available sources:\n\n"
  const TopicSeparator: string := "\n\n--- NEW TOPIC ---\n\n"

  function UserPrompt(b: Bundle, topics: seq<string>): (prompt: string)
    ensures StartsWith(prompt, Header)
  {
    Header + Join(TopicBlocks(b, topics), TopicSeparator)
  }

  /** A topic gets a block exactly when some source has material for it,
      and the blocks keep the order of the topics. */
  lemma BlockPositions(b: Bundle, topics: seq<string>) returns (idx: seq<nat>)
    ensures var blocks := TopicBlocks(b, topics);
      && |idx| == |blocks|
      && (forall j :: 0 <= j < |idx| ==> idx[j] < |topics| && TopicBlock(b, topics[idx[j]]) == Some(blocks[j]))
      && (forall j, k :: 0 <= j < k < |idx| ==> idx[j] < idx[k])
      && (forall i :: 0 <= i < |topics| ==> (HasMaterial(b, topics[i]) <==> i in idx))
  {
    idx := KeptPositions((t: string) => TopicBlock(b, t), topics);
  }

  /** Only the content the sources hold for each topic matters. */
  lemma SameContentSameBlocks(b1: Bundle, b2: Bundle, topics: seq<string>)
    requires forall s, t :: ContentOf(b1, s, t) == ContentOf(b2, s, t)
    ensures TopicBlocks(b1, topics) == TopicBlocks(b2, topics)
  {
    forall i | 0 <= i < |topics|
      ensures TopicBlock(b1, topics[i]) == TopicBlock(b2, topics[i])
    {
      var t := topics[i];
      assert Context(b1, t) == Context(b2, t);
      assert Sections(b1, Context(b1, t), t) == Sections(b2, Context(b2, t), t);
    }
    FilterMapAgree((t: string) => TopicBlock(b1, t), (t: string) => TopicBlock(b2, t), topics);
  }

  function WithAnalysis(b: Bundle, s: Source, a: Option<map<string, string>>): (b': Bundle)
    ensures Analysis(b', s) == a
    ensures forall s' :: s' != s ==> Analysis(b', s') == Analysis(b, s')
  {
    match s
    case News => b.(news := a)
    case Reddit => b.(reddit := a)
    case Twitter => b.(twitter := a)
  }

  /** A collector that did not run contributes exactly what an empty
      analysis would: nothing. */
  lemma NoneActsAsEmpty(b: Bundle, s: Source, topics: seq<string>)
    ensures UserPrompt(WithAnalysis(b, s, None), topics) == UserPrompt(WithAnalysis(b, s, Some(map[])), topics)
  {
    SameContentSameBlocks(WithAnalysis(b, s, None), WithAnalysis(b, s, Some(map[])), topics);
  }

  /** Without material for any topic the prompt is the bare header. */
  lemma NoMaterialBareHeader(b: Bundle, topics: seq<string>)
    requires forall i :: 0 <= i < |topics| ==> !HasMaterial(b, topics[i])
    ensures UserPrompt(b, topics) == Header
  {
    var idx := BlockPositions(b, topics);
  }

  /** A topic with material from one source only gets a block with just
      that source's section. */
  lemma SingleSourceBlock(b: Bundle, topic: string, s: Source)
    requires ContentOf(b, s, topic) != ""
    requires forall s' :: s' != s ==> ContentOf(b, s', topic) == ""
    ensures TopicBlock(b, topic) == Some(BlockHead(topic) + Heading(s) + ContentOf(b, s, topic))
  {
    var section := Heading(s) + ContentOf(b, s, topic);
    assert Context(b, topic) == [s];
    assert Sections(b, [s], topic) == [section];
    assert Join([section], SectionSeparator) == section;
    assert TopicBlock(b, topic) == Some(BlockHead(topic) + Join(Sections(b, [s], topic), SectionSeparator));
    assert BlockHead(topic) + section == BlockHead(topic) + Heading(s) + ContentOf(b, s, topic);
  }

  lemma TwoBlocks(b: Bundle, a: string, c: string)
    requires TopicBlock(b, a).Some? && TopicBlock(b, c).Some?
    ensures UserPrompt(b, [a, c]) == Header + TopicBlock(b, a).value + TopicSeparator + TopicBlock(b, c).value
  {
    var f := (t: string) => TopicBlock(b, t);
    var x, y := TopicBlock(b, a).value, TopicBlock(b, c).value;
    JoinKeptPair(f, a, c, TopicSeparator);
    assert TopicBlocks(b, [a, c]) == FilterMap(f, [a, c]);
    AppendFour(Header, x, TopicSeparator, y);
  }

  /** Two kept elements joined with `sep`. */
  lemma JoinKeptPair(f: string -> Option<string>, a: string, c: string, sep: string)
    requires f(a).Some? && f(c).Some?
    ensures Join(FilterMap(f, [a, c]), sep) == f(a).value + sep + f(c).value
  {
    FilterMapPair(f, a, c);
    JoinPair(f(a).value, f(c).value, sep);
  }

  /** Two topics, one with news only and one with Reddit material only: both
      get a block with just that section, in topic order. */
  lemma TwoTopicsOneSourceEach(a: string, c: string, newsA: string, redditC: string)
    requires a != c && newsA != "" && redditC != ""
    ensures UserPrompt(Bundle(Some(map[a := newsA]), Some(map[c := redditC]), None), [a, c])
         == Header
            + (BlockHead(a) + Heading(News) + newsA)
            + TopicSeparator
            + (BlockHead(c) + Heading(Reddit) + redditC)
  {
    var b := Bundle(Some(map[a := newsA]), Some(map[c := redditC]), None);
    assert ContentOf(b, News, a) == newsA && ContentOf(b, Reddit, a) == "" && ContentOf(b, Twitter, a) == "";
    assert ContentOf(b, Reddit, c) == redditC && ContentOf(b, News, c) == "" && ContentOf(b, Twitter, c) == "";
    SingleSourceBlock(b, a, News);
    SingleSourceBlock(b, c, Reddit);
    TwoBlocks(b, a, c);
  }
}

=== FILE: dicts.dfy ===
/** Python dicts filled by a loop `for i, k in enumerate(keys): d[k] = v[i]`
    over an initially empty dict: every key ends up present, and a key that
    occurs more than once keeps the value assigned at its last occurrence. */
module Dicts {

  /** The keys a dict filled from `keys` ends up with: `set(keys)`. */
  function KeySet<K>(keys: seq<K>): (s: set<K>)
    ensures forall i :: 0 <= i < |keys| ==> keys[i] in s
  {
    set k | k in keys
  }

  /** Position `i` holds the last occurrence of `keys[i]`. */
  ghost predicate IsLast<K>(keys: seq<K>, i: int)
    requires 0 <= i < |keys|
  {
    forall j :: i < j < |keys| ==> keys[j] != keys[i]
  }

  /** The dict after assigning `values[i]` to `keys[i]` for each `i` in order. */
  function Assign<K, V>(keys: seq<K>, values: seq<V>): (d: map<K, V>)
    requires |keys| == |values|
    ensures d.Keys == KeySet(keys)
    ensures forall i :: 0 <= i < |keys| && IsLast(keys, i) ==> d[keys[i]] == values[i]
    decreases |keys|
  {
    if keys == [] then map[]
    else
      var n := |keys| - 1;
      var d := Assign(keys[..n], values[..n]);
      StepFacts(keys, values, n, d);
      d[keys[n] := values[n]]
  }

  lemma StepFacts<K, V>(keys: seq<K>, values: seq<V>, n: nat, d: map<K, V>)
    requires n + 1 == |keys| == |values|
    requires d.Keys == KeySet(keys[..n])
    requires forall i :: 0 <= i < n && IsLast(keys[..n], i) ==> d[keys[..n][i]] == values[..n][i]
    ensures d[keys[n] := values[n]].Keys == KeySet(keys)
    ensures forall i :: 0 <= i < |keys| && IsLast(keys, i) ==> d[keys[n] := values[n]][keys[i]] == values[i]
  {
    assert keys == keys[..n] + [keys[n]];
    forall i | 0 <= i < |keys| && IsLast(keys, i)
      ensures d[keys[n] := values[n]][keys[i]] == values[i]
    {
      if i < n {
        assert keys[..n][i] == keys[i] && values[..n][i] == values[i];
        assert IsLast(keys[..n], i);
      }
    }
  }

  /** Every key has a last occurrence. */
  lemma {:induction false} LastOccurrence<K>(keys: seq<K>, k: K) returns (i: nat)
    requires k in keys
    ensures i < |keys| && keys[i] == k && IsLast(keys, i)
    decreases |keys|
  {
    var n := |keys| - 1;
    if keys[n] == k {
      i := n;
    } else {
      assert k in keys[..n] by {
        var j :| 0 <= j < |keys| && keys[j] == k;
        assert j < n && keys[..n][j] == k;
      }
      var i' := LastOccurrence(keys[..n], k);
      i := i';
    }
  }

  /** When each value is a function of its key only, the dict is that function
      on the keys, however often a key repeats. */
  lemma AssignUniform<K, V>(keys: seq<K>, values: seq<V>, f: K -> V)
    requires |keys| == |values|
    requires forall i :: 0 <= i < |keys| ==> values[i] == f(keys[i])
    ensures forall k :: k in Assign(keys, values) ==> Assign(keys, values)[k] == f(k)
  {
    forall k | k in Assign(keys, values)
      ensures Assign(keys, values)[k] == f(k)
    {
      var i := LastOccurrence(keys, k);
    }
  }

  /** With pairwise distinct keys, position `i` determines the value of `keys[i]`. */
  lemma AssignDistinct<K, V>(keys: seq<K>, values: seq<V>)
    requires |keys| == |values|
    requires forall i, j :: 0 <= i < j < |keys| ==> keys[i] != keys[j]
    ensures forall i :: 0 <= i < |keys| ==> Assign(keys, values)[keys[i]] == values[i]
  {
    forall i | 0 <= i < |keys|
      ensures Assign(keys, values)[keys[i]] == values[i]
    {
      assert IsLast(keys, i);
    }
  }
}

=== FILE: headlines.dfy ===
/** `extract_headlines` (utils.py): the cleaned text of a news page is cut
    into stripped, non-empty lines; a line reading exactly "More" closes a
    block, and the first line of every non-empty block is a headline. The
    headlines are joined with newlines. */
module Headlines {
  import opened Wrappers
  import opened Text
  import opened Seqs

  const More: string := "More"

  // ---------------------------------------------------------------------------
  // Lines

  /** `[line.strip() for line in raw if line.strip()]`. */
  function StrippedLines(raw: seq<string>): (lines: seq<string>)
    ensures forall i :: 0 <= i < |lines| ==> lines[i] != [] && IsStripped(lines[i])
    decreases |raw|
  {
    if raw == [] then []
    else
      var s := Strip(raw[0]);
      if s == [] then StrippedLines(raw[1..]) else [s] + StrippedLines(raw[1..])
  }

  lemma {:induction false} StrippedLinesKeep(raw: seq<string>, c: char)
    requires forall i :: 0 <= i < |raw| ==> c !in raw[i]
    ensures forall i :: 0 <= i < |StrippedLines(raw)| ==> c !in StrippedLines(raw)[i]
    decreases |raw|
  {
    if raw != [] {
      StripKeeps(raw[0], c);
      StrippedLinesKeep(raw[1..], c);
    }
  }

  /** The lines the loop of `extract_headlines` walks over. */
  function Lines(text: string): (lines: seq<string>)
    ensures forall i :: 0 <= i < |lines| ==> lines[i] != [] && IsStripped(lines[i])
    ensures forall i :: 0 <= i < |lines| ==> '\n' !in lines[i]
  {
    StrippedLinesKeep(Split(text, '\n'), '\n');
    StrippedLines(Split(text, '\n'))
  }

  /** The comprehension's test and value for one raw line: its stripped text,
      when that is not empty. */
  function NonBlank(s: string): (r: Option<string>)
    ensures r.Some? <==> Strip(s) != []
    ensures r.Some? ==> r.value == Strip(s)
  {
    if Strip(s) == [] then None else Some(Strip(s))
  }

  lemma {:induction false} StrippedIsFilterMap(raw: seq<string>)
    ensures StrippedLines(raw) == FilterMap(NonBlank, raw)
    decreases |raw|
  {
    if raw != [] {
      StrippedIsFilterMap(raw[1..]);
    }
  }

  /** Every piece of `text.split('\n')` that is not blank gives one line, its
      stripped text, in input order; blank pieces give none. */
  lemma LinesPositions(text: string) returns (idx: seq<nat>)
    ensures var pieces := Split(text, '\n'); var lines := Lines(text);
      && |idx| == |lines|
      && (forall j :: 0 <= j < |idx| ==> idx[j] < |pieces| && lines[j] == Strip(pieces[idx[j]]))
      && (forall j, k :: 0 <= j < k < |idx| ==> idx[j] < idx[k])
      && (forall i :: 0 <= i < |pieces| ==> (Strip(pieces[i]) != [] <==> i in idx))
  {
    StrippedIsFilterMap(Split(text, '\n'));
    idx := KeptPositions(NonBlank, Split(text, '\n'));
  }

  // ---------------------------------------------------------------------------
  // The loop of the source

  /** The `for line in lines` loop, from a state holding the headlines found so
      far and the current block, followed by the final flush of the block. */
  function Scan(lines: seq<string>, headlines: seq<string>, block: seq<string>): seq<string>
    decreases |lines|
  {
    if lines == [] then
      if block != [] then headlines + [block[0]] else headlines
    else if lines[0] == More then
      if block != [] then Scan(lines[1..], headlines + [block[0]], [])
      else Scan(lines[1..], headlines, block)
    else Scan(lines[1..], headlines, block + [lines[0]])
  }

  /** The headlines, before they are joined. */
  function HeadlineList(text: string): seq<string> {
    Scan(Lines(text), [], [])
  }

  /** `extract_headlines(text)`. */
  function ExtractHeadlines(text: string): string {
    Join(HeadlineList(text), "\n")
  }

  // ---------------------------------------------------------------------------
  // Reference definition: the first line of every non-empty block

  /** The first element of each non-empty group, in order. */
  function Firsts(groups: seq<seq<string>>): seq<string>
    decreases |groups|
  {
    if groups == [] then []
    else (if groups[0] != [] then [groups[0][0]] else []) + Firsts(groups[1..])
  }

  lemma FirstsCons(g: seq<string>, gs: seq<seq<string>>)
    ensures Firsts([g] + gs) == (if g != [] then [g[0]] else []) + Firsts(gs)
  {
    assert ([g] + gs)[1..] == gs;
  }

  /** The loop from any state: the headlines already found, then the first
      line of the current block extended by the rest of its lines, then the
      first line of every later block. */
  lemma {:induction false} ScanFirsts(lines: seq<string>, headlines: seq<string>, block: seq<string>)
    ensures var g := Split(lines, More);
            Scan(lines, headlines, block) == headlines + Firsts([block + g[0]] + g[1..])
    decreases |lines|
  {
    if lines == [] {
      FirstsCons(block, []);
      assert block + [] == block;
    } else if lines[0] == More {
      var h := if block != [] then headlines + [block[0]] else headlines;
      ScanFirsts(lines[1..], h, []);
      FirstsAtMore(lines, headlines, block);
    } else {
      ScanFirsts(lines[1..], headlines, block + [lines[0]]);
      FirstsAtLine(lines, block);
    }
  }

  /** A "More" line closes the current block. */
  lemma FirstsAtMore(lines: seq<string>, headlines: seq<string>, block: seq<string>)
    requires lines != [] && lines[0] == More
    ensures var g := Split(lines, More);
            var g' := Split(lines[1..], More);
            headlines + Firsts([block + g[0]] + g[1..])
            == (if block != [] then headlines + [block[0]] else headlines) + Firsts([[] + g'[0]] + g'[1..])
  {
    var g := Split(lines, More);
    var g' := Split(lines[1..], More);
    assert g == [[]] + g';
    assert g[0] == [] && g[1..] == g';
    assert block + g[0] == block;
    FirstsCons(block, g');
    assert g' == [g'[0]] + g'[1..];
    assert [] + g'[0] == g'[0];
  }

  /** Any other line joins the current block. */
  lemma FirstsAtLine(lines: seq<string>, block: seq<string>)
    requires lines != [] && lines[0] != More
    ensures var g := Split(lines, More);
            var g' := Split(lines[1..], More);
            Firsts([block + g[0]] + g[1..]) == Firsts([(block + [lines[0]]) + g'[0]] + g'[1..])
  {
    var g := Split(lines, More);
    var g' := Split(lines[1..], More);
    assert g == [[lines[0]] + g'[0]] + g'[1..];
    assert block + g[0] == (block + [lines[0]]) + g'[0];
  }

  /** The headlines of a line list are the first lines of its non-empty
      "More"-delimited blocks. */
  lemma BlockHeads(lines: seq<string>)
    ensures Scan(lines, [], []) == Firsts(Split(lines, More))
  {
    var g := Split(lines, More);
    ScanFirsts(lines, [], []);
    assert [] + g[0] == g[0];
    assert [g[0]] + g[1..] == g;
  }

  lemma HeadlinesAreBlockHeads(text: string)
    ensures HeadlineList(text) == Firsts(Split(Lines(text), More))
  {
    BlockHeads(Lines(text));
  }

  // ---------------------------------------------------------------------------
  // Reference definition: positions where a run of non-"More" lines begins

  /** The block heads of `lines`; with `afterMore` false the list continues a
      block that is already open, whose head has been taken. */
  function HeadsFrom(lines: seq<string>, afterMore: bool): seq<string> {
    var g := Split(lines, More);
    if afterMore then Firsts(g) else Firsts(g[1..])
  }

  /** `HeadsFrom` read one line at a time. */
  lemma HeadsFromStep(lines: seq<string>, afterMore: bool)
    requires lines != []
    ensures HeadsFrom(lines, afterMore) ==
            if lines[0] == More then HeadsFrom(lines[1..], true)
            else (if afterMore then [lines[0]] else []) + HeadsFrom(lines[1..], false)
  {
    var g' := Split(lines[1..], More);
    var g := Split(lines, More);
    if lines[0] == More {
      assert g == [[]] + g';
      FirstsCons([], g');
    } else {
      assert g == [[lines[0]] + g'[0]] + g'[1..];
      assert g[1..] == g'[1..];
      FirstsCons([lines[0]] + g'[0], g'[1..]);
    }
  }

  /** Line `i` is not "More" and follows "More" (or, at position 0, follows a
      "More" exactly when `afterMore` says so). */
  predicate StartsRun(lines: seq<string>, i: int, afterMore: bool)
    requires 0 <= i < |lines|
  {
    lines[i] != More && (if i == 0 then afterMore else lines[i - 1] == More)
  }

  /** Positions `idx` of `lines`, increasing, holding exactly the run starts,
      whose lines are `hs`. */
  ghost predicate AtRunStarts(lines: seq<string>, afterMore: bool, hs: seq<string>, idx: seq<nat>) {
    && |idx| == |hs|
    && (forall k :: 0 <= k < |idx| ==> idx[k] < |lines| && hs[k] == lines[idx[k]])
    && (forall k :: 0 <= k < |idx| ==> StartsRun(lines, idx[k], afterMore))
    && (forall k, l :: 0 <= k < l < |idx| ==> idx[k] < idx[l])
    && (forall i :: 0 <= i < |lines| && StartsRun(lines, i, afterMore) ==> i in idx)
  }

  /** Run starts of `lines` past position 0 are the run starts of its tail, moved by one. */
  lemma StartsRunTail(lines: seq<string>, afterMore: bool, i: nat)
    requires 1 <= i < |lines|
    ensures StartsRun(lines, i, afterMore) <==> StartsRun(lines[1..], i - 1, lines[0] == More)
  {
  }

  lemma ShiftKeepsRunStarts(lines: seq<string>, afterMore: bool, hs: seq<string>, idx': seq<nat>)
    requires lines != [] && (lines[0] == More || !afterMore)
    requires AtRunStarts(lines[1..], lines[0] == More, hs, idx')
    ensures AtRunStarts(lines, afterMore, hs, Shift(idx'))
  {
    var idx := Shift(idx');
    forall k | 0 <= k < |idx|
      ensures idx[k] < |lines| && hs[k] == lines[idx[k]] && StartsRun(lines, idx[k], afterMore)
    {
      StartsRunTail(lines, afterMore, idx[k]);
    }
    forall i | 0 <= i < |lines| && StartsRun(lines, i, afterMore)
      ensures i in idx
    {
      StartsRunTail(lines, afterMore, i);
      var k :| 0 <= k < |idx'| && idx'[k] == i - 1;
      assert idx[k] == i;
    }
  }

  lemma ShiftAddsRunStart(lines: seq<string>, hs: seq<string>, idx': seq<nat>)
    requires lines != [] && lines[0] != More
    requires AtRunStarts(lines[1..], false, hs, idx')
    ensures AtRunStarts(lines, true, [lines[0]] + hs, [0] + Shift(idx'))
  {
    ShiftConsIncreasing(idx');
    RunStartsAdded(lines, hs, idx');
    RunStartsCovered(lines, idx');
  }

  /** Line 0 and the tail's run starts, moved by one, are run starts. */
  lemma RunStartsAdded(lines: seq<string>, hs: seq<string>, idx': seq<nat>)
    requires lines != [] && lines[0] != More && |idx'| == |hs|
    requires forall k :: 0 <= k < |idx'| ==> idx'[k] < |lines[1..]| && hs[k] == lines[1..][idx'[k]]
    requires forall k :: 0 <= k < |idx'| ==> StartsRun(lines[1..], idx'[k], false)
    ensures var idx := [0] + Shift(idx'); var hs2 := [lines[0]] + hs;
      forall k :: 0 <= k < |idx| ==> idx[k] < |lines| && hs2[k] == lines[idx[k]] && StartsRun(lines, idx[k], true)
  {
    var idx := [0] + Shift(idx');
    var hs2 := [lines[0]] + hs;
    forall k | 0 <= k < |idx|
      ensures idx[k] < |lines| && hs2[k] == lines[idx[k]] && StartsRun(lines, idx[k], true)
    {
      if k > 0 {
        assert idx[k] == idx'[k - 1] + 1 && hs2[k] == hs[k - 1];
        StartsRunTail(lines, true, idx[k]);
      }
    }
  }

  /** Every run start past line 0 is a run start of the tail, moved by one. */
  lemma RunStartsCovered(lines: seq<string>, idx': seq<nat>)
    requires lines != [] && lines[0] != More
    requires forall i :: 0 <= i < |lines[1..]| && StartsRun(lines[1..], i, false) ==> i in idx'
    ensures var idx := [0] + Shift(idx');
      forall i :: 0 <= i < |lines| && StartsRun(lines, i, true) ==> i in idx
  {
    var idx := [0] + Shift(idx');
    forall i | 0 < i < |lines| && StartsRun(lines, i, true)
      ensures i in idx
    {
      StartsRunTail(lines, true, i);
      var k :| 0 <= k < |idx'| && idx'[k] == i - 1;
      assert idx[k + 1] == i;
    }
  }

  /** The block heads of a line list sit at exactly its run starts, in order. */
  lemma {:induction false} RunStarts(lines: seq<string>, afterMore: bool) returns (idx: seq<nat>)
    ensures AtRunStarts(lines, afterMore, HeadsFrom(lines, afterMore), idx)
    decreases |lines|
  {
    if lines == [] {
      FirstsCons([], []);
      assert HeadsFrom(lines, afterMore) == [];
      idx := [];
    } else {
      HeadsFromStep(lines, afterMore);
      var hs' := HeadsFrom(lines[1..], lines[0] == More);
      var idx' := RunStarts(lines[1..], lines[0] == More);
      if lines[0] != More && afterMore {
        ShiftAddsRunStart(lines, hs', idx');
        idx := [0] + Shift(idx');
      } else {
        assert [] + hs' == hs';
        ShiftKeepsRunStarts(lines, afterMore, hs', idx');
        idx := Shift(idx');
      }
    }
  }

  // ---------------------------------------------------------------------------
  // Properties of extract_headlines

  /** The loop keeps exactly the lines that open a run of non-"More" lines,
      in order. */
  lemma ScanPositions(lines: seq<string>) returns (idx: seq<nat>)
    ensures var hs := Scan(lines, [], []);
            && |idx| == |hs|
            && (forall k :: 0 <= k < |idx| ==> idx[k] < |lines| && hs[k] == lines[idx[k]] && hs[k] != More)
            && (forall k, l :: 0 <= k < l < |idx| ==> idx[k] < idx[l])
            && (forall i :: 0 <= i < |lines| ==> (StartsRun(lines, i, true) <==> i in idx))
  {
    BlockHeads(lines);
    idx := RunStarts(lines, true);
  }

  /** Every headline is one of the stripped, non-empty lines and not "More";
      the headlines keep the order of the lines; a line is a headline exactly
      when it opens a run of non-"More" lines, so there are as many headlines
      as such runs. */
  lemma HeadlinePositions(text: string) returns (idx: seq<nat>)
    ensures var lines := Lines(text);
            var hs := HeadlineList(text);
            && |idx| == |hs|
            && (forall k :: 0 <= k < |idx| ==> idx[k] < |lines| && hs[k] == lines[idx[k]])
            && (forall k :: 0 <= k < |hs| ==> hs[k] != More && hs[k] != [] && IsStripped(hs[k]))
            && (forall k, l :: 0 <= k < l < |idx| ==> idx[k] < idx[l])
            && (forall i :: 0 <= i < |lines| ==> (StartsRun(lines, i, true) <==> i in idx))
  {
    var lines := Lines(text);
    idx := ScanPositions(lines);
    assert HeadlineList(text) == Scan(lines, [], []);
  }

  /** No headline is found exactly when every line reads "More" (including
      when there are no lines at all). */
  lemma NoHeadlinesIff(text: string)
    ensures HeadlineList(text) == [] <==> forall i :: 0 <= i < |Lines(text)| ==> Lines(text)[i] == More
  {
    var lines := Lines(text);
    BlockHeads(lines);
    var idx := RunStarts(lines, true);
    NoRunStartIff(lines, HeadsFrom(lines, true), idx);
  }

  /** There is no run start exactly when every line is "More". */
  lemma NoRunStartIff(lines: seq<string>, hs: seq<string>, idx: seq<nat>)
    requires AtRunStarts(lines, true, hs, idx)
    ensures hs == [] <==> forall i :: 0 <= i < |lines| ==> lines[i] == More
  {
    if hs != [] {
      assert lines[idx[0]] != More;
    }
    if exists i :: 0 <= i < |lines| && lines[i] != More {
      var i :| 0 <= i < |lines| && lines[i] != More;
      while i > 0 && lines[i - 1] != More
        invariant 0 <= i < |lines| && lines[i] != More
        decreases i
      {
        i := i - 1;
      }
      assert StartsRun(lines, i, true);
      assert i in idx;
    }
  }

  lemma {:induction false} PiecesFromText<T>(s: seq<T>, sep: T, x: T)
    requires x !in s
    ensures forall i :: 0 <= i < |Split(s, sep)| ==> x !in Split(s, sep)[i]
    decreases |s|
  {
    if s != [] {
      PiecesFromText(s[1..], sep, x);
    }
  }

  lemma {:induction false} StrippedLinesOfBlank(raw: seq<string>)
    requires forall i, k :: 0 <= i < |raw| && 0 <= k < |raw[i]| ==> IsSpace(raw[i][k])
    ensures StrippedLines(raw) == []
    decreases |raw|
  {
    if raw != [] {
      StripEmptyIff(raw[0]);
      StrippedLinesOfBlank(raw[1..]);
    }
  }

  /** Blank or whitespace-only text has no headlines. */
  lemma BlankText(text: string)
    requires forall k :: 0 <= k < |text| ==> IsSpace(text[k])
    ensures ExtractHeadlines(text) == ""
  {
    var raw := Split(text, '\n');
    forall i, k | 0 <= i < |raw| && 0 <= k < |raw[i]|
      ensures IsSpace(raw[i][k])
    {
      var c := raw[i][k];
      if !IsSpace(c) {
        assert c !in text;
        PiecesFromText(text, '\n', c);
        assert false;
      }
    }
    StrippedLinesOfBlank(raw);
  }

  /** Without any "More" line the result is the first stripped, non-empty line. */
  lemma NoMoreMarker(text: string)
    requires Lines(text) != []
    requires More !in Lines(text)
    ensures ExtractHeadlines(text) == Lines(text)[0]
  {
    HeadlinesAreBlockHeads(text);
    SplitFree(Lines(text), More);
    FirstsCons(Lines(text), []);
  }

  /** When `idx` lists the run starts of `lines` in order, a run after the
      last "More" opens the last listed position. */
  lemma LastRunStart(lines: seq<string>, hs: seq<string>, idx: seq<nat>, cut: nat)
    requires AtRunStarts(lines, true, hs, idx)
    requires cut + 1 < |lines| && lines[cut] == More
    requires More !in lines[cut + 1..]
    ensures hs != [] && hs[|hs| - 1] == lines[cut + 1]
  {
    assert StartsRun(lines, cut + 1, true);
    var k :| 0 <= k < |idx| && idx[k] == cut + 1;
    var last := |idx| - 1;
    forall j | cut + 1 < j < |lines|
      ensures !StartsRun(lines, j, true)
    {
      assert lines[j - 1] == lines[cut + 1..][j - 1 - (cut + 1)];
    }
    assert idx[last] >= idx[k];
    assert StartsRun(lines, idx[last], true);
  }

  /** A block after the last "More" still gives its first line as the last headline. */
  lemma TrailingBlock(text: string, cut: nat)
    requires cut < |Lines(text)| && Lines(text)[cut] == More
    requires cut + 1 < |Lines(text)|
    requires More !in Lines(text)[cut + 1..]
    ensures var hs := HeadlineList(text); hs != [] && hs[|hs| - 1] == Lines(text)[cut + 1]
  {
    var lines := Lines(text);
    BlockHeads(lines);
    var idx := RunStarts(lines, true);
    LastRunStart(lines, HeadsFrom(lines, true), idx, cut);
  }

  lemma JoinStartsWithFirst(parts: seq<string>, sep: string)
    requires parts != [] && parts[0] != []
    ensures Join(parts, sep) != [] && Join(parts, sep)[0] == parts[0][0]
  {
  }

  /** The summariser stand-in of the news collector applies exactly when no
      headline was found: a non-empty headline list never joins to blank text. */
  lemma BlankResultIff(text: string)
    ensures (ExtractHeadlines(text) == "" || Strip(ExtractHeadlines(text)) == "") <==> HeadlineList(text) == []
  {
    var hs := HeadlineList(text);
    var idx := HeadlinePositions(text);
    if hs != [] {
      JoinStartsWithFirst(hs, "\n");
      StripEmptyIff(ExtractHeadlines(text));
    }
  }

  /** The joined result splits back into the headline list. */
  lemma SplitHeadlines(text: string)
    requires HeadlineList(text) != []
    ensures Split(ExtractHeadlines(text), '\n') == HeadlineList(text)
  {
    var idx := HeadlinePositions(text);
    SplitJoin(HeadlineList(text), '\n');
  }
}

=== FILE: language.dfy ===
/** The language helpers of the pipeline: the table from language codes to
    Murf voices, the voice lookup, and translation of the English script
    (utils.py:317-349). The Gemini model that translates is a parameter: a
    function from the prompt it receives to what it returns or raises. */
module Language {
  import opened Wrappers
  import opened Text

  /** `VOICE_BY_LANG`: two-letter language codes to Murf voice names. */
  const VoiceByLang: map<string, string> := map[
    "en" := "wayne", "hi" := "shweta", "es" := "valeria", "fr" := "victor",
    "de" := "max", "it" := "vera", "ja" := "kei", "ko" := "seo-yun",
    "pt" := "pedro", "ru" := "sofia", "zh" := "xing"]

  const DefaultVoice: string := "en-US-natalie"

  /** The locale codes the web front end offers (frontend.py:10-19). */
  const FrontendLocales: seq<string> :=
    ["en-US", "hi-IN", "en-IN", "ta-IN", "bn-IN", "es-MX", "zh-CN", "ja-JP"]

  /** `get_voice_for_language` as written: the code itself is looked up. */
  function VoiceForLanguage(code: string): (voice: string)
    ensures code in VoiceByLang ==> voice == VoiceByLang[code]
    ensures code !in VoiceByLang ==> voice == DefaultVoice
  {
    if code in VoiceByLang then VoiceByLang[code] else DefaultVoice
  }

  /** Every key of the table is two letters without a hyphen. */
  lemma KeysHaveNoHyphen()
    ensures forall k :: k in VoiceByLang ==> |k| == 2 && '-' !in k
  {
  }

  /** Any code with a region part, such as a locale, falls through to the
      default voice. */
  lemma LocaleGetsDefault(code: string)
    requires '-' in code
    ensures VoiceForLanguage(code) == DefaultVoice
  {
    KeysHaveNoHyphen();
  }

  /** So does every locale the front end can send, Hindi and Japanese included. */
  lemma FrontendLocalesGetDefault()
    ensures forall i :: 0 <= i < |FrontendLocales| ==> VoiceForLanguage(FrontendLocales[i]) == DefaultVoice
  {
    forall i | 0 <= i < |FrontendLocales|
      ensures VoiceForLanguage(FrontendLocales[i]) == DefaultVoice
    {
      assert FrontendLocales[i][2] == '-';
      LocaleGetsDefault(FrontendLocales[i]);
    }
  }

  /** The lookup meant for locale codes: the language part before the first
      hyphen selects the voice. */
  function VoiceForLocale(code: string): (voice: string)
    ensures voice == DefaultVoice || voice in VoiceByLang.Values
  {
    VoiceForLanguage(Split(code, '-')[0])
  }

  /** A locale `lang-REGION` gets the voice of `lang`. */
  lemma LocaleUsesLanguage(lang: string, region: string)
    requires '-' !in lang
    ensures VoiceForLocale(lang + "-" + region) == VoiceForLanguage(lang)
  {
    SplitAfterPiece(lang, '-', region);
    assert lang + "-" + region == lang + ['-'] + region;
  }

  /** A bare language code is looked up as before. */
  lemma BareCodeUnchanged(code: string)
    requires '-' !in code
    ensures VoiceForLocale(code) == VoiceForLanguage(code)
  {
    SplitFree(code, '-');
  }

  /** Each locale the front end offers gets the voice of its two-letter
      language part. */
  lemma FrontendLocaleVoices()
    ensures forall i :: 0 <= i < |FrontendLocales| ==>
      VoiceForLocale(FrontendLocales[i]) == VoiceForLanguage(FrontendLocales[i][..2])
  {
    forall i | 0 <= i < |FrontendLocales|
      ensures VoiceForLocale(FrontendLocales[i]) == VoiceForLanguage(FrontendLocales[i][..2])
    {
      var loc := FrontendLocales[i];
      assert loc == loc[..2] + "-" + loc[3..];
      LocaleUsesLanguage(loc[..2], loc[3..]);
    }
  }

  /** The Hindi locale: the lookup as written gives the English default
      voice, the locale lookup gives the Hindi voice. */
  lemma HindiLocaleVoice()
    ensures VoiceForLanguage("hi-IN") == DefaultVoice
    ensures VoiceForLocale("hi-IN") == "shweta"
  {
    LocaleGetsDefault("hi-IN");
    assert "hi-IN" == "hi" + "-" + "IN";
    LocaleUsesLanguage("hi", "IN");
  }

  /** The instruction sent to the model, followed by the script itself. */
  function TranslatePrompt(text: string, target: string): (prompt: string)
    ensures |text| <= |prompt| && prompt[|prompt| - |text|..] == text
  {
    "Translate the following broadcast news script to " + target + ". "
    + "Maintain paragraph structure, formal broadcast tone, no extra commentary.\n\n"
    + text
  }

  /** `translate_for_language`: targets starting with "en" return the text
      untouched; any other target returns the model's stripped answer, and
      an error of the model propagates. */
  function TranslateForLanguage(text: string, target: string, model: string -> Outcome<string>): (r: Outcome<string>)
    ensures StartsWith(target, "en") ==> r == Ok(text)
    ensures !StartsWith(target, "en") ==>
      && (r.Ok? <==> model(TranslatePrompt(text, target)).Ok?)
      && (r.Err? ==> r == model(TranslatePrompt(text, target)))
      && (r.Ok? ==> IsStripped(r.value))
  {
    if StartsWith(target, "en") then Ok(text)
    else
      match model(TranslatePrompt(text, target))
      case Ok(t) =>
        StrippedIsFixed(Strip(t));
        StripIdempotent(t);
        Ok(Strip(t))
      case Err(e) => Err(e)
  }

  /** For an English target the model is never consulted. */
  lemma EnglishIgnoresModel(text: string, target: string, m1: string -> Outcome<string>, m2: string -> Outcome<string>)
    requires StartsWith(target, "en")
    ensures TranslateForLanguage(text, target, m1) == TranslateForLanguage(text, target, m2)
  {
  }

  /** Otherwise the translation is exactly the model's answer up to
      surrounding white space. */
  lemma TranslationIsModelAnswer(text: string, target: string, model: string -> Outcome<string>, answer: string)
    requires !StartsWith(target, "en")
    requires model(TranslatePrompt(text, target)) == Ok(answer)
    ensures TranslateForLanguage(text, target, model) == Ok(Strip(answer))
    ensures IsStripped(answer) ==> TranslateForLanguage(text, target, model) == Ok(answer)
  {
    StrippedIsFixed(answer);
  }
}

=== FILE: news_scraper.dfy ===
/** `NewsScraper.scrape_news` (news_scraper.py:35-152): for each topic in
    turn, fetch its Google News search page through BrightData, falling back
    to a direct request; reduce the page to text and the text to headlines;
    substitute a stand-in when no headline is found; have Gemini turn the
    headlines into a script. Any failure on the way records a placeholder
    for that topic only.

    The outside world enters as one `TopicIO` per topic, saying what each
    call would return or raise; the HTML-to-text step is a parameter. */
module NewsScraper {
  import opened Wrappers
  import opened Text
  import opened Seqs
  import Dicts
  import UrlCodec
  import Headlines
  import Retry

  /** Outcomes of the three calls made for one topic. */
  datatype TopicIO = TopicIO(brightData: Outcome<string>, direct: Outcome<string>, summary: Outcome<string>)

  /** The calls made, with what was sent. */
  datatype Call = BrightData(url: string) | DirectGet(url: string) | Summarize(headlines: string)

  datatype TopicRun = TopicRun(value: string, calls: seq<Call>)

  datatype NewsRun = NewsRun(analysis: map<string, string>, calls: seq<Call>)

  function Placeholder(topic: string): string {
    "We couldn't retrieve the latest news about " + topic + " at this time."
  }

  function StandIn(topic: string): string {
    "Latest news about " + topic
  }

  /** `generate_news_urls_to_scrape([topic])[topic]`. */
  function TopicUrl(topic: string): (url: string)
    ensures url == UrlCodec.NewsUrl(topic)
  {
    assert topic in [topic];
    UrlCodec.NewsUrls([topic])[topic]
  }

  /** The page of the first fetch that succeeds, BrightData first. */
  predicate Fetched(io: TopicIO) {
    io.brightData.Ok? || io.direct.Ok?
  }

  function Page(io: TopicIO): string
    requires Fetched(io)
  {
    if io.brightData.Ok? then io.brightData.value else io.direct.value
  }

  /** What the summarizer is given: the headlines, or the stand-in when they
      are empty or white space only. */
  function SummaryInput(topic: string, headlines: string): (input: string)
    ensures Strip(input) != ""
    ensures Strip(headlines) != "" ==> input == headlines
    ensures Strip(headlines) == "" ==> input == StandIn(topic)
  {
    if headlines == "" || Strip(headlines) == "" then
      assert StandIn(topic)[0] == 'L';
      assert !IsSpace(StandIn(topic)[0]);
      StripEmptyIff(StandIn(topic));
      StandIn(topic)
    else headlines
  }

  /** The headlines extracted from the page a topic's fetch returned, or
      nothing when no page was fetched. */
  function HeadlinesOf(io: TopicIO, extract: string -> string): string {
    if Fetched(io) then extract(Page(io)) else ""
  }

  /** `clean_html_to_text` followed by `extract_headlines`: the page is
      reduced to text by the HTML parser `getText` and stripped, then the
      headlines are taken from it. This is the `extract` the scraper uses. */
  function PageHeadlines(getText: string -> string): string -> string {
    page => Headlines.ExtractHeadlines(Strip(getText(page)))
  }

  /** The fetch calls for a topic URL: BrightData, then the direct request
      only when BrightData failed. */
  function Fetches(url: string, io: TopicIO): (calls: seq<Call>)
    ensures 1 <= |calls| <= 2 && calls[0] == BrightData(url)
    ensures |calls| == 2 <==> io.brightData.Err?
    ensures |calls| == 2 ==> calls[1] == DirectGet(url)
  {
    if io.brightData.Ok? then [BrightData(url)] else [BrightData(url), DirectGet(url)]
  }

  /** The calls made for one topic whose search URL is `url`, when the
      summarizer is given `input`: BrightData is always asked first and only
      once; the direct request is made exactly when BrightData fails; the
      summarizer is called, last, exactly when a page was fetched. */
  function TopicCalls(url: string, io: TopicIO, input: string): (calls: seq<Call>)
    ensures calls != [] && calls[0] == BrightData(url)
    ensures |calls| == (if io.brightData.Ok? then 1 else 2) + (if Fetched(io) then 1 else 0)
    ensures io.brightData.Err? ==> calls[1] == DirectGet(url)
    ensures forall k :: 1 <= k < |calls| ==> !calls[k].BrightData?
    ensures Fetched(io) ==> calls[|calls| - 1] == Summarize(input)
  {
    var fetches := Fetches(url, io);
    if !Fetched(io) then fetches
    else
      var calls := fetches + [Summarize(input)];
      assert forall k :: 0 <= k < |fetches| ==> calls[k] == fetches[k];
      calls
  }

  /** The body of the loop for one topic, with the `except` at lines 136-140,
      once the page's headlines are known. The summarizer, when called, is
      never given blank input; non-blank headlines are passed on as they are. */
  function ProcessPage(topic: string, io: TopicIO, headlines: string): (r: TopicRun)
    ensures r.calls == TopicCalls(UrlCodec.NewsUrl(topic), io, SummaryInput(topic, headlines))
    ensures Fetched(io) ==> r.calls[|r.calls| - 1].Summarize? && Strip(r.calls[|r.calls| - 1].headlines) != ""
    ensures Fetched(io) && Strip(headlines) != "" ==> r.calls[|r.calls| - 1] == Summarize(headlines)
    ensures Fetched(io) && Strip(headlines) == "" ==> r.calls[|r.calls| - 1] == Summarize(StandIn(topic))
    ensures Fetched(io) && io.summary.Ok? ==> r.value == io.summary.value
    ensures !(Fetched(io) && io.summary.Ok?) ==> r.value == Placeholder(topic)
  {
    TopicRun(if Fetched(io) && io.summary.Ok? then io.summary.value else Placeholder(topic),
             TopicCalls(TopicUrl(topic), io, SummaryInput(topic, headlines)))
  }

  function ProcessTopic(topic: string, io: TopicIO, extract: string -> string): TopicRun {
    ProcessPage(topic, io, HeadlinesOf(io, extract))
  }

  /** A page with no text at all makes the summarizer work from the stand-in. */
  lemma EmptyPageUsesStandIn(topic: string, io: TopicIO, getText: string -> string)
    requires Fetched(io) && getText(Page(io)) == ""
    ensures var calls := ProcessTopic(topic, io, PageHeadlines(getText)).calls;
      calls[|calls| - 1] == Summarize(StandIn(topic))
  {
    StrippedIsFixed("");
    Headlines.BlankText("");
    assert PageHeadlines(getText)(Page(io)) == "";
    assert SummaryInput(topic, "") == StandIn(topic);
  }

  function Values(topics: seq<string>, io: seq<TopicIO>, extract: string -> string): (vs: seq<string>)
    requires |io| == |topics|
    ensures |vs| == |topics|
    ensures forall i :: 0 <= i < |topics| ==> vs[i] == ProcessTopic(topics[i], io[i], extract).value
  {
    seq(|topics|, i requires 0 <= i < |topics| => ProcessTopic(topics[i], io[i], extract).value)
  }

  /** The calls of all topics, topic after topic. */
  function Calls(topics: seq<string>, io: seq<TopicIO>, extract: string -> string): seq<Call>
    requires |io| == |topics|
    decreases |topics|
  {
    if topics == [] then []
    else ProcessTopic(topics[0], io[0], extract).calls + Calls(topics[1..], io[1..], extract)
  }

  /** `scrape_news`: every topic is a key of the analysis; a topic listed
      more than once keeps its last result; no failure escapes. */
  function ScrapeNews(topics: seq<string>, io: seq<TopicIO>, extract: string -> string): (r: NewsRun)
    requires |io| == |topics|
    ensures r.analysis.Keys == Dicts.KeySet(topics)
    ensures forall i :: 0 <= i < |topics| && Dicts.IsLast(topics, i) ==>
      r.analysis[topics[i]] == ProcessTopic(topics[i], io[i], extract).value
  {
    NewsRun(Dicts.Assign(topics, Values(topics, io, extract)), Calls(topics, io, extract))
  }

  /** A topic that fails leaves the other topics' results as they would have
      been. */
  lemma FailureStaysWithTopic(topics: seq<string>, io: seq<TopicIO>, extract: string -> string, i: nat, failed: TopicIO)
    requires |io| == |topics| && i < |topics|
    requires !Fetched(failed)
    requires forall j, k :: 0 <= j < k < |topics| ==> topics[j] != topics[k]
    ensures var r := ScrapeNews(topics, io[i := failed], extract);
      && r.analysis[topics[i]] == Placeholder(topics[i])
      && forall j :: 0 <= j < |topics| && j != i ==>
           r.analysis[topics[j]] == ScrapeNews(topics, io, extract).analysis[topics[j]]
  {
    Dicts.AssignDistinct(topics, Values(topics, io[i := failed], extract));
    Dicts.AssignDistinct(topics, Values(topics, io, extract));
  }

  function PrimaryUrl(c: Call): Option<string> {
    if c.BrightData? then Some(c.url) else None
  }

  lemma PrimaryFirstOnly(calls: seq<Call>)
    requires calls != [] && calls[0].BrightData?
    requires forall k :: 1 <= k < |calls| ==> !calls[k].BrightData?
    ensures FilterMap(PrimaryUrl, calls) == [calls[0].url]
  {
    var rest := calls[1..];
    assert calls == [calls[0]] + rest;
    forall k | 0 <= k < |rest|
      ensures PrimaryUrl(rest[k]).None?
    {
      assert rest[k] == calls[k + 1];
    }
    FilterMapCons(PrimaryUrl, calls[0], rest);
    NoneKept(PrimaryUrl, rest);
  }

  lemma TopicPrimaryUrl(topic: string, io: TopicIO, extract: string -> string)
    ensures FilterMap(PrimaryUrl, ProcessTopic(topic, io, extract).calls) == [UrlCodec.NewsUrl(topic)]
  {
    PrimaryFirstOnly(ProcessTopic(topic, io, extract).calls);
  }

  /** The topics are handled one at a time in list order: the BrightData
      requests go out for the topics' search URLs, in order, one each. */
  lemma {:induction false} PrimaryRequestsInOrder(topics: seq<string>, io: seq<TopicIO>, extract: string -> string)
    requires |io| == |topics|
    ensures FilterMap(PrimaryUrl, Calls(topics, io, extract)) == Map(UrlCodec.NewsUrl, topics)
    decreases |topics|
  {
    if topics != [] {
      PrimaryRequestsInOrder(topics[1..], io[1..], extract);
      FilterMapAppend(PrimaryUrl, ProcessTopic(topics[0], io[0], extract).calls, Calls(topics[1..], io[1..], extract));
      TopicPrimaryUrl(topics[0], io[0], extract);
    }
  }

  /** The retry decorator around `scrape_news` (at most 3 attempts, any
      exception retried, 2 to 10 seconds apart) never fires: the first
      attempt always returns. */
  lemma NewsNeverRetries(topics: seq<string>, io: seq<TopicIO>, extract: string -> string, later: seq<Outcome<NewsRun>>)
    requires |io| == |topics| && |later| == 2
    ensures var run := Retry.Run(Retry.NewsPolicy, (e: string) => true, [Ok(ScrapeNews(topics, io, extract))] + later);
      run.attempts == 1 && run.result == Ok(ScrapeNews(topics, io, extract)) && run.waits == []
  {
    var steps := [Ok(ScrapeNews(topics, io, extract))] + later;
    Retry.RunStopsAtFirstFinal(Retry.NewsPolicy, (e: string) => true, steps, 0);
  }
}

=== FILE: retry.dfy ===
/** The retry decorators of the collectors: tenacity's
    `stop_after_attempt(n)` with `wait_exponential(multiplier, min, max)`,
    retrying only errors a predicate accepts and, once the attempts are
    spent, re-raising the last error (`reraise=True`). The environment says
    up front what every attempt would return; the run consumes a prefix.

    The decorator on `scrape_news` (news_scraper.py:35-38) has no `reraise`
    and no `retry` predicate: it retries every error, and once its attempts
    are spent tenacity raises `RetryError` rather than the last error. Its
    first attempt always returns (`NewsScraper.NewsNeverRetries`), so that
    difference never shows and the same model serves both. */
module Retry {
  import opened Wrappers

  datatype Policy = Policy(maxAttempts: nat, multiplier: nat, minWait: nat, maxWait: nat)

  /** `NewsScraper.scrape_news` (news_scraper.py:35-38). */
  const NewsPolicy: Policy := Policy(3, 1, 2, 10)

  /** `process_topic` and `process_twitter_topic` (reddit_scraper.py:74-79,
      twitter_scraper.py:73-78). */
  const AgentPolicy: Policy := Policy(3, 1, 15, 60)

  function Pow2(n: nat): (r: nat)
    ensures r >= 1
  {
    if n == 0 then 1 else 2 * Pow2(n - 1)
  }

  lemma {:induction false} Pow2Monotone(a: nat, b: nat)
    requires a <= b
    ensures Pow2(a) <= Pow2(b)
    decreases b
  {
    if a < b {
      Pow2Monotone(a, b - 1);
    }
  }

  /** Seconds waited after failed attempt number `attempt` (1-based):
      `max(max(0, min), min(multiplier * 2 ** (attempt - 1), max))`. */
  function Backoff(p: Policy, attempt: nat): (w: nat)
    requires attempt >= 1
    ensures p.minWait <= w
    ensures p.minWait <= p.maxWait ==> w <= p.maxWait
  {
    var raw := p.multiplier * Pow2(attempt - 1);
    var capped := if raw < p.maxWait then raw else p.maxWait;
    if capped < p.minWait then p.minWait else capped
  }

  /** Multiplying by the same factor keeps the order. */
  lemma {:induction false} MulMonotone(m: nat, x: nat, y: nat)
    requires x <= y
    ensures m * x <= m * y
    decreases m
  {
    if m > 0 {
      MulMonotone(m - 1, x, y);
    }
  }

  /** Later attempts never wait less. */
  lemma BackoffMonotone(p: Policy, a: nat, b: nat)
    requires 1 <= a <= b
    ensures Backoff(p, a) <= Backoff(p, b)
  {
    Pow2Monotone(a - 1, b - 1);
    MulMonotone(p.multiplier, Pow2(a - 1), Pow2(b - 1));
  }

  /** What a decorated call did: its final result, how many attempts it
      made, and the waits between them. */
  datatype Attempted<T, E> = Attempted(result: Result<T, E>, attempts: nat, waits: seq<nat>)

  /** The run from attempt `k` (0-based) on. */
  function RunFrom<T, E>(p: Policy, retryable: E -> bool, steps: seq<Result<T, E>>, k: nat): (r: Attempted<T, E>)
    requires k < |steps| == p.maxAttempts
    ensures k < r.attempts <= |steps|
    ensures r.result == steps[r.attempts - 1]
    ensures forall j :: k <= j < r.attempts - 1 ==> steps[j].Err? && retryable(steps[j].error)
    ensures r.attempts < |steps| ==> r.result.Ok? || !retryable(r.result.error)
    ensures |r.waits| == r.attempts - 1 - k
    ensures forall j :: 0 <= j < |r.waits| ==> r.waits[j] == Backoff(p, k + j + 1)
    decreases |steps| - k
  {
    var o := steps[k];
    if o.Ok? || !retryable(o.error) || k + 1 == |steps| then Attempted(o, k + 1, [])
    else
      var r := RunFrom(p, retryable, steps, k + 1);
      r.(waits := [Backoff(p, k + 1)] + r.waits)
  }

  /** A decorated call. The run stops at the first attempt that returns or
      raises a non-retryable error, or at the last attempt; its result is
      that attempt's; every earlier attempt raised a retryable error, and
      between consecutive attempts there is exactly one backoff wait. */
  function Run<T, E>(p: Policy, retryable: E -> bool, steps: seq<Result<T, E>>): (r: Attempted<T, E>)
    requires 1 <= |steps| == p.maxAttempts
    ensures 1 <= r.attempts <= p.maxAttempts
    ensures r.result == steps[r.attempts - 1]
    ensures forall j :: 0 <= j < r.attempts - 1 ==> steps[j].Err? && retryable(steps[j].error)
    ensures r.attempts < p.maxAttempts ==> r.result.Ok? || !retryable(r.result.error)
    ensures |r.waits| == r.attempts - 1
    ensures forall j :: 0 <= j < |r.waits| ==> p.minWait <= r.waits[j]
    ensures p.minWait <= p.maxWait ==> forall j :: 0 <= j < |r.waits| ==> r.waits[j] <= p.maxWait
  {
    RunFrom(p, retryable, steps, 0)
  }

  /** The attempt count is determined: it is the position of the first step
      that ends the run, or the last attempt. */
  lemma RunStopsAtFirstFinal<T, E>(p: Policy, retryable: E -> bool, steps: seq<Result<T, E>>, k: nat)
    requires 1 <= |steps| == p.maxAttempts
    requires k < |steps|
    requires steps[k].Ok? || !retryable(steps[k].error)
    requires forall j :: 0 <= j < k ==> steps[j].Err? && retryable(steps[j].error)
    ensures Run(p, retryable, steps).attempts == k + 1
    ensures Run(p, retryable, steps).result == steps[k]
  {
  }
}

=== FILE: seqs.dfy ===
/** Keeping the elements of a sequence that a partial function maps to a
    value, in order: the shape of the Python loops that append to a list
    only under a condition. */
module Seqs {
  import opened Wrappers

  function FilterMap<A, B>(f: A -> Option<B>, xs: seq<A>): (ys: seq<B>)
    ensures |ys| <= |xs|
    decreases |xs|
  {
    if xs == [] then []
    else (if f(xs[0]).Some? then [f(xs[0]).value] else []) + FilterMap(f, xs[1..])
  }

  /** `[f(x) for x in xs]`. */
  function Map<A, B>(f: A -> B, xs: seq<A>): (ys: seq<B>)
    ensures |ys| == |xs| && forall i :: 0 <= i < |xs| ==> ys[i] == f(xs[i])
    decreases |xs|
  {
    if xs == [] then [] else [f(xs[0])] + Map(f, xs[1..])
  }

  lemma FilterMapCons<A, B>(f: A -> Option<B>, x: A, xs: seq<A>)
    ensures FilterMap(f, [x] + xs) == (if f(x).Some? then [f(x).value] else []) + FilterMap(f, xs)
  {
    assert ([x] + xs)[1..] == xs;
  }

  lemma FilterMapPair<A, B>(f: A -> Option<B>, x: A, y: A)
    requires f(x).Some? && f(y).Some?
    ensures FilterMap(f, [x, y]) == [f(x).value, f(y).value]
  {
    FilterMapCons(f, y, []);
    FilterMapCons(f, x, [y]);
    assert [x] + [y] == [x, y];
  }

  lemma {:induction false} FilterMapAppend<A, B>(f: A -> Option<B>, xs: seq<A>, ys: seq<A>)
    ensures FilterMap(f, xs + ys) == FilterMap(f, xs) + FilterMap(f, ys)
    decreases |xs|
  {
    if xs != [] {
      FilterMapAppend(f, xs[1..], ys);
      assert (xs + ys)[1..] == xs[1..] + ys;
    } else {
      assert xs + ys == ys;
    }
  }

  /** Nothing is kept when `f` maps no element to a value. */
  lemma {:induction false} NoneKept<A, B>(f: A -> Option<B>, xs: seq<A>)
    requires forall k :: 0 <= k < |xs| ==> f(xs[k]).None?
    ensures FilterMap(f, xs) == []
    decreases |xs|
  {
    if xs != [] {
      assert forall k :: 0 <= k < |xs[1..]| ==> xs[1..][k] == xs[k + 1];
      NoneKept(f, xs[1..]);
    }
  }

  /** `idx` lists, in increasing order, positions of `xs` that `f` keeps,
      every such position among them, and `ys` holds their images. */
  ghost predicate KeptAt<A, B>(f: A -> Option<B>, xs: seq<A>, ys: seq<B>, idx: seq<nat>) {
    && |idx| == |ys|
    && (forall j :: 0 <= j < |idx| ==> idx[j] < |xs| && f(xs[idx[j]]) == Some(ys[j]))
    && (forall j, k :: 0 <= j < k < |idx| ==> idx[j] < idx[k])
    && (forall i :: 0 <= i < |xs| && f(xs[i]).Some? ==> i in idx)
  }

  function Shift(idx: seq<nat>): (r: seq<nat>)
    ensures |r| == |idx| && forall j :: 0 <= j < |idx| ==> r[j] == idx[j] + 1
  {
    seq(|idx|, j requires 0 <= j < |idx| => idx[j] + 1)
  }

  /** Moving increasing positions up by one leaves room for position 0. */
  lemma ShiftConsIncreasing(idx: seq<nat>)
    requires forall j, k :: 0 <= j < k < |idx| ==> idx[j] < idx[k]
    ensures var r := [0] + Shift(idx); forall j, k :: 0 <= j < k < |r| ==> r[j] < r[k]
  {
    var r := [0] + Shift(idx);
    forall j, k | 0 <= j < k < |r|
      ensures r[j] < r[k]
    {
      assert r[k] == idx[k - 1] + 1;
      if j > 0 {
        assert r[j] == idx[j - 1] + 1;
      }
    }
  }

  lemma ShiftSkips<A, B>(f: A -> Option<B>, xs: seq<A>, ys: seq<B>, idx: seq<nat>)
    requires xs != [] && f(xs[0]).None?
    requires KeptAt(f, xs[1..], ys, idx)
    ensures KeptAt(f, xs, ys, Shift(idx))
  {
    var sh := Shift(idx);
    forall j | 0 <= j < |sh|
      ensures sh[j] < |xs| && f(xs[sh[j]]) == Some(ys[j])
    {
      assert xs[1..][idx[j]] == xs[sh[j]];
    }
    forall i | 0 <= i < |xs| && f(xs[i]).Some?
      ensures i in sh
    {
      assert xs[1..][i - 1] == xs[i];
      var j :| 0 <= j < |idx| && idx[j] == i - 1;
      assert sh[j] == i;
    }
  }

  lemma ShiftAdds<A, B>(f: A -> Option<B>, xs: seq<A>, ys: seq<B>, idx: seq<nat>)
    requires xs != [] && f(xs[0]).Some?
    requires KeptAt(f, xs[1..], ys, idx)
    ensures KeptAt(f, xs, [f(xs[0]).value] + ys, [0] + Shift(idx))
  {
    ShiftConsIncreasing(idx);
    KeptAdded(f, xs, ys, idx);
    KeptCovered(f, xs, idx);
  }

  /** Position 0 and the tail's kept positions, moved by one, are kept. */
  lemma KeptAdded<A, B>(f: A -> Option<B>, xs: seq<A>, ys: seq<B>, idx: seq<nat>)
    requires xs != [] && f(xs[0]).Some? && |idx| == |ys|
    requires forall j :: 0 <= j < |idx| ==> idx[j] < |xs[1..]| && f(xs[1..][idx[j]]) == Some(ys[j])
    ensures var sh := [0] + Shift(idx); var ys2 := [f(xs[0]).value] + ys;
      forall j :: 0 <= j < |sh| ==> sh[j] < |xs| && f(xs[sh[j]]) == Some(ys2[j])
  {
    var sh := [0] + Shift(idx);
    var ys2 := [f(xs[0]).value] + ys;
    forall j | 0 <= j < |sh|
      ensures sh[j] < |xs| && f(xs[sh[j]]) == Some(ys2[j])
    {
      if j > 0 {
        assert sh[j] == idx[j - 1] + 1 && ys2[j] == ys[j - 1];
        assert xs[1..][idx[j - 1]] == xs[sh[j]];
      }
    }
  }

  /** Every kept position past 0 is a kept position of the tail, moved by one. */
  lemma KeptCovered<A, B>(f: A -> Option<B>, xs: seq<A>, idx: seq<nat>)
    requires xs != []
    requires forall i :: 0 <= i < |xs[1..]| && f(xs[1..][i]).Some? ==> i in idx
    ensures var sh := [0] + Shift(idx);
      forall i :: 0 <= i < |xs| && f(xs[i]).Some? ==> i in sh
  {
    var sh := [0] + Shift(idx);
    forall i | 0 < i < |xs| && f(xs[i]).Some?
      ensures i in sh
    {
      assert xs[1..][i - 1] == xs[i];
      var j :| 0 <= j < |idx| && idx[j] == i - 1;
      assert sh[j + 1] == i;
    }
  }

  lemma {:induction false} KeptAtFilterMap<A, B>(f: A -> Option<B>, xs: seq<A>) returns (idx: seq<nat>)
    ensures KeptAt(f, xs, FilterMap(f, xs), idx)
    decreases |xs|
  {
    if xs == [] {
      idx := [];
    } else {
      var rest := KeptAtFilterMap(f, xs[1..]);
      if f(xs[0]).Some? {
        ShiftAdds(f, xs, FilterMap(f, xs[1..]), rest);
        idx := [0] + Shift(rest);
      } else {
        assert FilterMap(f, xs) == FilterMap(f, xs[1..]);
        ShiftSkips(f, xs, FilterMap(f, xs[1..]), rest);
        idx := Shift(rest);
      }
    }
  }

  /** Exactly the positions `f` maps to a value contribute, in order. */
  lemma KeptPositions<A, B>(f: A -> Option<B>, xs: seq<A>) returns (idx: seq<nat>)
    ensures var ys := FilterMap(f, xs);
      && |idx| == |ys|
      && (forall j :: 0 <= j < |idx| ==> idx[j] < |xs| && f(xs[idx[j]]) == Some(ys[j]))
      && (forall j, k :: 0 <= j < k < |idx| ==> idx[j] < idx[k])
      && (forall i :: 0 <= i < |xs| ==> (f(xs[i]).Some? <==> i in idx))
  {
    idx := KeptAtFilterMap(f, xs);
  }

  /** Functions that agree on the elements keep the same values. */
  lemma {:induction false} FilterMapAgree<A, B>(f: A -> Option<B>, g: A -> Option<B>, xs: seq<A>)
    requires forall i :: 0 <= i < |xs| ==> f(xs[i]) == g(xs[i])
    ensures FilterMap(f, xs) == FilterMap(g, xs)
    decreases |xs|
  {
    if xs != [] {
      assert forall i :: 0 <= i < |xs[1..]| ==> xs[1..][i] == xs[i + 1];
      FilterMapAgree(f, g, xs[1..]);
    }
  }
}

=== FILE: text.dfy ===
/** Python string primitives the core relies on: `str.split` with a
    one-character separator, `sep.join`, `str.strip` with no argument,
    the `in` substring test and `str.startswith`. `Split` and `Join` are
    generic so that the same definitions split text into lines, a message
    at its apostrophes, and a list of lines at its "More" markers. */
module Text {

  /** Python's `s.split(sep)` for a separator of length one: the pieces
      between separators, including empty ones; `"".split(sep) == [""]`. */
  function Split<T(==)>(s: seq<T>, sep: T): (parts: seq<seq<T>>)
    ensures |parts| >= 1
    ensures forall i :: 0 <= i < |parts| ==> sep !in parts[i]
    decreases |s|
  {
    if s == [] then [[]]
    else
      var rest := Split(s[1..], sep);
      if s[0] == sep then [[]] + rest
      else [[s[0]] + rest[0]] + rest[1..]
  }

  /** Python's `sep.join(parts)`. */
  function Join<T>(parts: seq<seq<T>>, sep: seq<T>): seq<T>
    decreases |parts|
  {
    if |parts| == 0 then []
    else if |parts| == 1 then parts[0]
    else parts[0] + sep + Join(parts[1..], sep)
  }

  lemma JoinCons<T>(p: seq<T>, rest: seq<seq<T>>, sep: seq<T>)
    requires |rest| >= 1
    ensures Join([p] + rest, sep) == p + sep + Join(rest, sep)
  {
    assert ([p] + rest)[1..] == rest;
  }

  /** Appending is associative (the instance the prompts need). */
  lemma AppendFour<T>(a: seq<T>, b: seq<T>, c: seq<T>, d: seq<T>)
    ensures a + (b + c + d) == a + b + c + d
  {
  }

  lemma JoinPair<T>(x: seq<T>, y: seq<T>, sep: seq<T>)
    ensures Join([x, y], sep) == x + sep + y
  {
    assert [x, y][1..] == [y];
  }

  /** There is one more piece than there are separators. */
  lemma {:induction false} SplitCount<T>(s: seq<T>, sep: T)
    ensures |Split(s, sep)| == multiset(s)[sep] + 1
    decreases |s|
  {
    if s != [] {
      SplitCount(s[1..], sep);
      assert s == [s[0]] + s[1..];
    }
  }

  /** Joining the pieces with the separator gives back the original. */
  lemma {:induction false} JoinSplit<T>(s: seq<T>, sep: T)
    ensures Join(Split(s, sep), [sep]) == s
    decreases |s|
  {
    if s != [] {
      var rest := Split(s[1..], sep);
      JoinSplit(s[1..], sep);
      if s[0] == sep {
        JoinCons([], rest, [sep]);
        assert [sep] + s[1..] == s;
      } else {
        JoinHead(s[0], rest, [sep]);
        assert [s[0]] + s[1..] == s;
      }
    }
  }

  /** Putting an element in front of the first piece puts it in front of the join. */
  lemma JoinHead<T>(x: T, parts: seq<seq<T>>, sep: seq<T>)
    requires |parts| >= 1
    ensures Join([[x] + parts[0]] + parts[1..], sep) == [x] + Join(parts, sep)
  {
    if |parts| > 1 {
      JoinCons([x] + parts[0], parts[1..], sep);
      JoinCons(parts[0], parts[1..], sep);
      assert [parts[0]] + parts[1..] == parts;
    }
  }

  lemma {:induction false} SplitFree<T>(p: seq<T>, sep: T)
    requires sep !in p
    ensures Split(p, sep) == [p]
    decreases |p|
  {
    if p != [] {
      SplitFree(p[1..], sep);
      assert [p[0]] + p[1..] == p;
    }
  }

  lemma {:induction false} SplitAfterPiece<T>(p: seq<T>, sep: T, t: seq<T>)
    requires sep !in p
    ensures Split(p + [sep] + t, sep) == [p] + Split(t, sep)
    decreases |p|
  {
    if p == [] {
      assert p + [sep] + t == [sep] + t;
      assert ([sep] + t)[1..] == t;
    } else {
      var s := p + [sep] + t;
      assert s[1..] == p[1..] + [sep] + t;
      SplitAfterPiece(p[1..], sep, t);
      assert [p[0]] + p[1..] == p;
    }
  }

  /** Splitting a join recovers the pieces, provided none holds the separator. */
  lemma {:induction false} SplitJoin<T>(parts: seq<seq<T>>, sep: T)
    requires |parts| >= 1
    requires forall i :: 0 <= i < |parts| ==> sep !in parts[i]
    ensures Split(Join(parts, [sep]), sep) == parts
    decreases |parts|
  {
    if |parts| == 1 {
      SplitFree(parts[0], sep);
    } else {
      SplitJoin(parts[1..], sep);
      SplitAfterPiece(parts[0], sep, Join(parts[1..], [sep]));
      assert [parts[0]] + parts[1..] == parts;
    }
  }

  /** Python's `str.isspace()` for one character: the Unicode characters of
      bidirectional class WS, B or S, or general category Zs. */
  predicate IsSpace(c: char) {
    var n := c as int;
    || 0x09 <= n <= 0x0D || 0x1C <= n <= 0x20
    || n == 0x85 || n == 0xA0 || n == 0x1680
    || 0x2000 <= n <= 0x200A || n == 0x2028 || n == 0x2029
    || n == 0x202F || n == 0x205F || n == 0x3000
  }

  /** Python's `s.lstrip()`. */
  function TrimStart(s: string): (r: string)
    ensures |r| <= |s| && r == s[|s| - |r|..]
    ensures forall k :: 0 <= k < |s| - |r| ==> IsSpace(s[k])
    ensures r == [] || !IsSpace(r[0])
    decreases |s|
  {
    if s != [] && IsSpace(s[0]) then TrimStart(s[1..]) else s
  }

  /** Python's `s.rstrip()`. */
  function TrimEnd(s: string): (r: string)
    ensures |r| <= |s| && r == s[..|r|]
    ensures forall k :: |r| <= k < |s| ==> IsSpace(s[k])
    ensures r == [] || !IsSpace(r[|r| - 1])
    decreases |s|
  {
    if s != [] && IsSpace(s[|s| - 1]) then TrimEnd(s[..|s| - 1]) else s
  }

  /** Python's `s.strip()`: the result is the slice of `s` that starts and
      ends with a non-space, everything cut off on either side is space. */
  function Strip(s: string): (r: string)
    ensures var i := |s| - |TrimStart(s)|; i + |r| <= |s| && r == s[i..i + |r|]
    ensures forall k :: 0 <= k < |s| - |TrimStart(s)| ==> IsSpace(s[k])
    ensures forall k :: |s| - |TrimStart(s)| + |r| <= k < |s| ==> IsSpace(s[k])
    ensures r == [] || (!IsSpace(r[0]) && !IsSpace(r[|r| - 1]))
  {
    var t := TrimStart(s);
    var r := TrimEnd(t);
    assert r == t[..|r|];
    r
  }

  /** Neither end of `s` is space: `s` is its own `strip()` (see `StrippedIsFixed`). */
  predicate IsStripped(s: string) {
    s == [] || (!IsSpace(s[0]) && !IsSpace(s[|s| - 1]))
  }

  lemma StrippedIsFixed(s: string)
    ensures IsStripped(s) <==> Strip(s) == s
  {
    if IsStripped(s) && s != [] {
      assert TrimStart(s) == s;
      assert TrimEnd(s) == s;
    }
  }

  /** A string strips to nothing exactly when every character is space. */
  lemma StripEmptyIff(s: string)
    ensures Strip(s) == [] <==> forall k :: 0 <= k < |s| ==> IsSpace(s[k])
  {
    if Strip(s) != [] {
      var i := |s| - |TrimStart(s)|;
      assert !IsSpace(s[i]);
    }
  }

  /** Stripping never introduces a character. */
  lemma StripKeeps(s: string, c: char)
    requires c !in s
    ensures c !in Strip(s)
  {
    var r := Strip(s);
    var i := |s| - |TrimStart(s)|;
    forall k | 0 <= k < |r|
      ensures r[k] != c
    {
      assert r[k] == s[i + k];
    }
  }

  /** Stripping twice is stripping once. */
  lemma StripIdempotent(s: string)
    ensures Strip(Strip(s)) == Strip(s)
  {
    var r := Strip(s);
    if r != [] {
      assert TrimStart(r) == r;
      assert TrimEnd(r) == r;
    }
  }

  /** Python's `sub in s`. */
  predicate Contains(s: string, sub: string)
    decreases |s|
  {
    sub <= s || (s != [] && Contains(s[1..], sub))
  }

  /** Python's `s.startswith(prefix)`. */
  predicate StartsWith(s: string, prefix: string) {
    prefix <= s
  }
}

=== FILE: url_codec.dfy ===
/** The Google News search URL of `generate_valid_news_url` and the dict of
    `generate_news_urls_to_scrape` (utils.py). The query value is Python's
    `quote_plus(keyword)`: the keyword is encoded as UTF-8 (RFC 3629), every
    byte outside the unreserved set of section 2.3 of RFC 3986 is written as a
    percent-encoded octet (section 2.1 of RFC 3986, upper-case hex digits),
    except that a space byte becomes `+` as in application/x-www-form-urlencoded.
    Nothing is "safe" besides the unreserved set, so `/` is encoded too. A
    decoder is defined alongside as the partner of the encoder. */
module UrlCodec {
  import opened Wrappers
  import opened Text
  import Dicts

  newtype byte = x: int | 0 <= x < 256

  // ---------------------------------------------------------------------------
  // UTF-8

  /** The UTF-8 encoding of one Unicode scalar value. */
  function EncodeChar(c: char): (bs: seq<byte>)
    ensures 1 <= |bs| <= 4
    ensures (c as int < 0x80) == (|bs| == 1)
  {
    var n := c as int;
    if n < 0x80 then [n as byte]
    else if n < 0x800 then [(0xC0 + n / 64) as byte, (0x80 + n % 64) as byte]
    else if n < 0x10000 then
      [(0xE0 + n / 4096) as byte, (0x80 + (n / 64) % 64) as byte, (0x80 + n % 64) as byte]
    else
      [(0xF0 + n / 262144) as byte, (0x80 + (n / 4096) % 64) as byte,
       (0x80 + (n / 64) % 64) as byte, (0x80 + n % 64) as byte]
  }

  /** Python's `s.encode("utf-8")`. */
  function EncodeUtf8(s: string): seq<byte>
    decreases |s|
  {
    if s == [] then [] else EncodeChar(s[0]) + EncodeUtf8(s[1..])
  }

  predicate IsContinuation(b: byte) {
    0x80 <= b < 0xC0
  }

  /** The character whose scalar value is `n`, if `n` is one. */
  function ScalarChar(n: int): Option<char> {
    if 0 <= n < 0xD800 || 0xE000 <= n < 0x110000 then Some(n as char) else None
  }

  /** The first character of a UTF-8 byte string and how many bytes it takes;
      overlong forms and surrogates are refused. */
  function DecodeFirst(bs: seq<byte>): (r: Option<(char, nat)>)
    requires bs != []
    ensures r.Some? ==> 1 <= r.value.1 <= |bs|
  {
    var b0 := bs[0] as int;
    if b0 < 0x80 then Some((b0 as char, 1))
    else if 0xC0 <= b0 < 0xE0 && |bs| >= 2 && IsContinuation(bs[1]) then
      var n := (b0 - 0xC0) * 64 + (bs[1] as int - 0x80);
      if n < 0x80 then None
      else match ScalarChar(n) case Some(c) => Some((c, 2)) case None => None
    else if 0xE0 <= b0 < 0xF0 && |bs| >= 3 && IsContinuation(bs[1]) && IsContinuation(bs[2]) then
      var n := (b0 - 0xE0) * 4096 + (bs[1] as int - 0x80) * 64 + (bs[2] as int - 0x80);
      if n < 0x800 then None
      else match ScalarChar(n) case Some(c) => Some((c, 3)) case None => None
    else if 0xF0 <= b0 < 0xF8 && |bs| >= 4 && IsContinuation(bs[1]) && IsContinuation(bs[2])
            && IsContinuation(bs[3]) then
      var n := (b0 - 0xF0) * 262144 + (bs[1] as int - 0x80) * 4096
               + (bs[2] as int - 0x80) * 64 + (bs[3] as int - 0x80);
      if n < 0x10000 then None
      else match ScalarChar(n) case Some(c) => Some((c, 4)) case None => None
    else None
  }

  /** Python's `bs.decode("utf-8")`, with `None` where Python would raise. */
  function DecodeUtf8(bs: seq<byte>): Option<string>
    decreases |bs|
  {
    if bs == [] then Some([])
    else match DecodeFirst(bs)
      case None => None
      case Some((c, k)) =>
        match DecodeUtf8(bs[k..])
        case None => None
        case Some(rest) => Some([c] + rest)
  }

  lemma Digits2(n: int)
    requires 0 <= n
    ensures (n / 64) * 64 + n % 64 == n
  {
  }

  lemma Digits3(n: int)
    requires 0 <= n
    ensures (n / 4096) * 4096 + ((n / 64) % 64) * 64 + n % 64 == n
  {
    var q := n / 64;
    assert n == q * 64 + n % 64;
    assert q == (q / 64) * 64 + q % 64;
    assert q / 64 == n / 4096;
  }

  lemma Digits4(n: int)
    requires 0 <= n
    ensures (n / 262144) * 262144 + ((n / 4096) % 64) * 4096 + ((n / 64) % 64) * 64 + n % 64 == n
  {
    var q := n / 4096;
    Digits3(n);
    assert q == (q / 64) * 64 + q % 64;
    assert q / 64 == n / 262144;
  }

  /** Decoding the encoding of a character, whatever follows it, reads that
      character back and consumes exactly its encoding. */
  lemma DecodeEncodedChar(c: char, rest: seq<byte>)
    ensures DecodeFirst(EncodeChar(c) + rest) == Some((c, |EncodeChar(c)|))
  {
    var n := c as int;
    var bs := EncodeChar(c) + rest;
    if n < 0x80 {
    } else if n < 0x800 {
      Digits2(n);
    } else if n < 0x10000 {
      Digits3(n);
    } else {
      Digits4(n);
    }
  }

  /** UTF-8 decoding inverts UTF-8 encoding. */
  lemma {:induction false} DecodeEncodeUtf8(s: string)
    ensures DecodeUtf8(EncodeUtf8(s)) == Some(s)
    decreases |s|
  {
    if s != [] {
      var e := EncodeChar(s[0]);
      DecodeEncodedChar(s[0], EncodeUtf8(s[1..]));
      assert (e + EncodeUtf8(s[1..]))[|e|..] == EncodeUtf8(s[1..]);
      DecodeEncodeUtf8(s[1..]);
      assert [s[0]] + s[1..] == s;
    }
  }

  // ---------------------------------------------------------------------------
  // Percent encoding

  /** The bytes `quote` never escapes: ALPHA, DIGIT, "-", ".", "_" and "~". */
  predicate IsUnreservedByte(b: byte) {
    || 0x41 <= b <= 0x5A || 0x61 <= b <= 0x7A || 0x30 <= b <= 0x39
    || b == 0x2D || b == 0x2E || b == 0x5F || b == 0x7E
  }

  predicate IsUnreservedChar(c: char) {
    c as int < 0x80 && IsUnreservedByte(c as int as byte)
  }

  const HexDigits: string := "0123456789ABCDEF"

  /** The value of a hex digit of either case. */
  function HexValue(c: char): Option<int> {
    if '0' <= c <= '9' then Some(c as int - '0' as int)
    else if 'A' <= c <= 'F' then Some(c as int - 'A' as int + 10)
    else if 'a' <= c <= 'f' then Some(c as int - 'a' as int + 10)
    else None
  }

  /** One byte of `quote_plus`'s output. */
  function QuoteByte(b: byte): string {
    if IsUnreservedByte(b) then [b as int as char]
    else if b == 0x20 then "+"
    else ['%', HexDigits[b as int / 16], HexDigits[b as int % 16]]
  }

  function QuoteBytes(bs: seq<byte>): string
    decreases |bs|
  {
    if bs == [] then [] else QuoteByte(bs[0]) + QuoteBytes(bs[1..])
  }

  /** Python's `urllib.parse.quote_plus(s)` with its default `safe=''`. */
  function QuotePlus(s: string): string {
    QuoteBytes(EncodeUtf8(s))
  }

  /** The bytes a `quote_plus` output stands for; `None` on anything that
      `quote_plus` cannot have produced. */
  function UnquoteBytes(q: string): Option<seq<byte>>
    decreases |q|
  {
    if q == [] then Some([])
    else if q[0] == '+' then Prepend(0x20, UnquoteBytes(q[1..]))
    else if q[0] == '%' then
      if |q| >= 3 && HexValue(q[1]).Some? && HexValue(q[2]).Some? then
        Prepend((HexValue(q[1]).value * 16 + HexValue(q[2]).value) as byte, UnquoteBytes(q[3..]))
      else None
    else if IsUnreservedChar(q[0]) then Prepend(q[0] as int as byte, UnquoteBytes(q[1..]))
    else None
  }

  function Prepend(b: byte, rest: Option<seq<byte>>): Option<seq<byte>> {
    match rest case None => None case Some(bs) => Some([b] + bs)
  }

  /** The inverse of `QuotePlus`, in the manner of Python's `unquote_plus`. */
  function UnquotePlus(q: string): Option<string> {
    match UnquoteBytes(q) case None => None case Some(bs) => DecodeUtf8(bs)
  }

  lemma UnquoteQuotedByte(b: byte, rest: string)
    ensures UnquoteBytes(QuoteByte(b) + rest) == Prepend(b, UnquoteBytes(rest))
  {
    var q := QuoteByte(b) + rest;
    if IsUnreservedByte(b) {
      assert q[1..] == rest;
    } else if b == 0x20 {
      assert q[1..] == rest;
    } else {
      assert q[3..] == rest;
      assert HexValue(q[1]) == Some(b as int / 16);
      assert HexValue(q[2]) == Some(b as int % 16);
    }
  }

  /** Percent-decoding inverts percent-encoding at the byte level. */
  lemma {:induction false} UnquoteQuoteBytes(bs: seq<byte>)
    ensures UnquoteBytes(QuoteBytes(bs)) == Some(bs)
    decreases |bs|
  {
    if bs != [] {
      UnquoteQuotedByte(bs[0], QuoteBytes(bs[1..]));
      UnquoteQuoteBytes(bs[1..]);
      assert [bs[0]] + bs[1..] == bs;
    }
  }

  /** The keyword is recovered exactly from its `quote_plus` encoding. */
  lemma UnquoteQuotePlus(s: string)
    ensures UnquotePlus(QuotePlus(s)) == Some(s)
  {
    UnquoteQuoteBytes(EncodeUtf8(s));
    DecodeEncodeUtf8(s);
  }

  /** The characters `quote_plus` can emit. */
  predicate IsQueryChar(c: char) {
    IsUnreservedChar(c) || c == '+' || c == '%'
  }

  lemma {:induction false} QuoteBytesAlphabet(bs: seq<byte>)
    ensures forall k :: 0 <= k < |QuoteBytes(bs)| ==> IsQueryChar(QuoteBytes(bs)[k])
    decreases |bs|
  {
    if bs != [] {
      QuoteBytesAlphabet(bs[1..]);
      var h := QuoteByte(bs[0]);
      assert forall k :: 0 <= k < |h| ==> IsQueryChar(h[k]);
      var t := QuoteBytes(bs[1..]);
      assert forall k :: |h| <= k < |h| + |t| ==> (h + t)[k] == t[k - |h|];
    }
  }

  /** The encoded keyword consists of unreserved characters, `+` and `%` only,
      so it can never carry a `&`, `=`, `#` or space into the URL. */
  lemma QuotePlusAlphabet(s: string)
    ensures forall k :: 0 <= k < |QuotePlus(s)| ==> IsQueryChar(QuotePlus(s)[k])
    ensures '&' !in QuotePlus(s) && '=' !in QuotePlus(s) && '#' !in QuotePlus(s)
    ensures ' ' !in QuotePlus(s) && '/' !in QuotePlus(s)
  {
    QuoteBytesAlphabet(EncodeUtf8(s));
  }

  /** A keyword made of unreserved characters only is left as it is. */
  lemma {:induction false} QuotePlusUnreserved(s: string)
    requires forall k :: 0 <= k < |s| ==> IsUnreservedChar(s[k])
    ensures QuotePlus(s) == s
    decreases |s|
  {
    if s != [] {
      QuotePlusUnreserved(s[1..]);
      assert EncodeUtf8(s) == [s[0] as int as byte] + EncodeUtf8(s[1..]);
      assert [s[0]] + s[1..] == s;
    }
  }

  // ---------------------------------------------------------------------------
  // The search URL

  const SearchPrefix: string := "https://news.google.com/search?q="
  const SearchSuffix: string := "&tbs=sbd:1"

  /** `generate_valid_news_url(keyword)`. */
  function NewsUrl(keyword: string): (url: string)
    ensures StartsWith(url, SearchPrefix)
    ensures url[|url| - |SearchSuffix|..] == SearchSuffix
  {
    SearchPrefix + QuotePlus(keyword) + SearchSuffix
  }

  /** The raw `q` parameter of a search URL: what follows the prefix up to
      the first `&`. */
  function QueryValue(url: string): Option<string> {
    if StartsWith(url, SearchPrefix) then Some(Split(url[|SearchPrefix|..], '&')[0]) else None
  }

  /** The keyword a search URL searches for. */
  function KeywordOf(url: string): Option<string> {
    match QueryValue(url) case None => None case Some(q) => UnquotePlus(q)
  }

  /** The URL carries the encoded keyword as its whole `q` value, and the
      keyword can be read back from the URL exactly. */
  lemma NewsUrlRoundTrip(keyword: string)
    ensures QueryValue(NewsUrl(keyword)) == Some(QuotePlus(keyword))
    ensures KeywordOf(NewsUrl(keyword)) == Some(keyword)
  {
    var q := QuotePlus(keyword);
    var url := NewsUrl(keyword);
    QuotePlusAlphabet(keyword);
    assert url[|SearchPrefix|..] == q + ['&'] + "tbs=sbd:1";
    SplitAfterPiece(q, '&', "tbs=sbd:1");
    UnquoteQuotePlus(keyword);
  }

  /** Different keywords give different URLs. */
  lemma NewsUrlInjective(a: string, b: string)
    requires NewsUrl(a) == NewsUrl(b)
    ensures a == b
  {
    NewsUrlRoundTrip(a);
    NewsUrlRoundTrip(b);
  }

  /** `generate_news_urls_to_scrape(keywords)`: one entry per keyword, each
      the search URL of its key. */
  function NewsUrls(keywords: seq<string>): (urls: map<string, string>)
    ensures urls.Keys == Dicts.KeySet(keywords)
    ensures forall k :: k in urls ==> urls[k] == NewsUrl(k)
  {
    var values := seq(|keywords|, i requires 0 <= i < |keywords| => NewsUrl(keywords[i]));
    Dicts.AssignUniform(keywords, values, NewsUrl);
    Dicts.Assign(keywords, values)
  }
}

=== FILE: wrappers.dfy ===
/** Failure-carrying values used wherever the system reaches an upstream it
    cannot see (an HTTP fetch, a language-model call, an MCP session) or
    raises a Python exception. */
module Wrappers {

  datatype Option<+T> = None | Some(value: T)

  /** Either a value or the error that was raised instead of producing it. */
  datatype Result<+T, +E> = Ok(value: T) | Err(error: E)

  /** An upstream outcome whose error is the exception text `str(e)`. */
  type Outcome<T> = Result<T, string>
}
